=== FILE: README.md ===
# AI Debate Judge — a Dafny model of its rule sets

AI Debate Judge runs online debates. An Express/Mongo backend holds users,
debates and arguments. A socket.io layer tracks which sockets watch which debate.
A FastAPI service scores the two sides with a zero-shot classifier, picks a
verdict and records a SHA-256 fingerprint of the judgment on an Ethereum
contract. A Next.js client keeps the session token in localStorage.

The project models the rules under that glue:

- **Debate lifecycle** (`debate_routes.dfy`). A debate is created waiting, with
  its creator alone on side A. A debate activates when both sides have users.
  Judging copies the AI judgment in and completes the debate. Each participant's
  win/loss counters are then updated.
- **Argument submission** (`argument_routes.dfy`). An argument needs an active
  debate, a participant of the chosen side and room under the side's limit. Orders
  are numbered `count + 1`.
- **Shared store** (`store.dfy`). The three Mongo collections live in one
  `Database` class. Its invariant `Valid` is kept by every state-changing handler:
  - usernames and emails are unique;
  - each user's `total = wins + losses`;
  - debates are well formed;
  - per side, argument orders run 1..n within the limit.
- **Record shapes** (`debate_model.dfy`, `argument_model.dfy`). The Mongoose
  schemas become datatypes. The enums become parse/print pairs, and the settings
  defaults become `ApplySettingsDefaults`.
- **Accounts** (`auth_routes.dfy`). Register, login and `/me`.
- **Socket rooms** (`socket_rooms.dfy`). `RoomRegistry` holds the `debateRooms`
  map of sets, updated in place by join, leave and disconnect. It never stores an
  empty room. The `new-argument` readiness announcement is also here.
- **Judge service** (`judge_service.dfy`). This covers:
  - the control-character escaper `_escape_control_chars`, which the service
    defines but never calls, so the `/judge` response is not escaped;
  - the lazily built classifier cache;
  - the three-way verdict;
  - the reasoning line;
  - the response assembled when ledger recording fails.
- **Ledger recorder** (`ledger_recorder.dfy`). This covers:
  - import-time configuration (strip, `0x` key prefix, required variables, default ABI);
  - the `topic|a|b|verdict` payload;
  - the fixed transaction fields;
  - `to_hex`;
  - `store_ai_result`, where every failure becomes `None`.
- **Client session** (`session_store.dfy`). localStorage becomes a string map.
  Token validity is `exp * 1000 > now`.

`common.dfy` and `text.dfy` hold the shared vocabulary. That is `Option`, the
HTTP `Response`, JavaScript truthiness, whitespace trimming, and split/join on
one character. Each async handler is one sequential method that returns `Ok` or
`Err(status, body)`. Outside libraries arrive as function-valued parameters:
bcrypt, `jwt.sign`, `jwtDecode`, `isEmail`, JSON, SHA-256, address checksumming
and the Web3 calls. The clock is a `now` parameter.

Three facts about the code that the model makes explicit:

- **Reasoning line.** It is built from each side's top classifier label and the
  verdict; it carries no free-text rationale.
- **Gas price.** It is the fixed 10 gwei; it is never queried from the network.
- **Payload.** The `topic|a|b|verdict` payload is unambiguous even when the topic
  contains `|`, as long as the two score texts and the verdict are free of `|`.
  Python's float formatting and the three verdict texts are.
  `LedgerRecorder.PayloadDetermined` proves this.

## Model

| member | source | states |
|---|---|---|
| Common.OrElse | backend/src/routes/debates.js:30-31 | `s \|\| fallback`: the value when it is a non-empty string, else the fallback |
| Common.ListedIffFailed | backend/src/routes/arguments.js:10-13 | a validator's error list is empty exactly when no check failed, and lists each message exactly when its own check failed |
| Text.Trim | backend/src/models/Debate.js:5-9 | the result is the input with only a run of whitespace removed before it and after it, and it neither starts nor ends with whitespace |
| Text.TrimIdempotent | backend/src/models/Argument.js:19-23 | trimming an already trimmed value changes nothing |
| Text.TrimEmptyIffAllSpace | backend/src/routes/arguments.js:12 | a value trims to empty exactly when it is all whitespace, which is when `trim().notEmpty()` rejects it |
| Text.Split | backend/src/routes/debates.js:53 | `split(',')` yields at least one piece and no piece contains the separator |
| Text.JoinSplit | backend/src/routes/debates.js:53 | joining the pieces of a split gives back the original string |
| Text.SplitJoin | backend/src/routes/debates.js:53 | splitting a join of separator-free pieces gives back the pieces |
| Text.JoinEmpty | backend/src/routes/debates.js:154-157 | a join of non-empty pieces is empty exactly when there are none |
| Text.LeadingFieldDetermined | ai_service/ai_judge_free.py:79-83 | a separator absent from the leading fields makes a delimited record readable field by field |
| Text.HexDigit | ai_service/ai_judge_free.py:54 | a value below 16 becomes a lowercase hex digit that reads back as that value |
| Text.TrailingFieldDetermined | ai_service/blockchain_record.py:89 | a separator absent from the trailing fields determines them whatever the leading field holds |
| DebateModel.ParseStatus | backend/src/models/Debate.js:16-20 | only the four status names parse, and each parses back to its own status |
| DebateModel.ParseDebateType | backend/src/models/Debate.js:11-15 | only "1v1" and "team" parse, each back to its own type |
| DebateModel.ApplySettingsDefaults | backend/src/models/Debate.js:31-35 | a missing setting becomes 300 s, 5 arguments or public; a supplied one is kept |
| ArgumentModel.ParseSide | backend/src/models/Argument.js:14-18 | only "A" and "B" are sides, each read back to itself |
| ArgumentModel.ParseArgumentType | backend/src/models/Argument.js:24-28 | a missing or empty type is "argument"; otherwise only the four enum names are accepted |
| Store.Credit | backend/src/routes/debates.js:215-224 | the `$inc` updates of one loop applied in turn; a missing user is skipped. `CreditEffect` states the result |
| Store.CreditEffect | backend/src/routes/debates.js:215-224 | crediting adds one game per occurrence of a user's id, as a win or a loss, and changes nothing else |
| Store.CreditKeepsInvariants | backend/src/routes/debates.js:210-224 | crediting keeps usernames and emails unique and `total = wins + losses` |
| Store.OfDebate | backend/src/routes/debates.js:152 | the debate filter keeps only that debate's stored arguments |
| Store.OfDebateCount | backend/src/routes/arguments.js:64 | `Argument.find({ debateId })` keeps every stored argument of that debate, as often as it is stored, and no other |
| Store.OnSide | backend/src/routes/debates.js:154-155 | the side filter keeps only that side's arguments |
| Store.SideArgumentsAppend | backend/src/routes/arguments.js:37-51 | storing an argument extends exactly the pile of its own debate and side by that argument |
| Store.Insert | backend/src/routes/arguments.js:66 | inserting into an order-sorted list keeps it sorted, with the new element or the old head first |
| Store.InsertPermutes | backend/src/routes/arguments.js:66 | inserting adds exactly that element and drops nothing |
| Store.SortByOrder | backend/src/routes/arguments.js:64-66 | `.sort('order')` gives an order-sorted permutation of its input |
| Store.OnSidePermutation | backend/src/routes/debates.js:152-155 | permuting the arguments permutes each side's filtered list |
| Store.OnSideSorted | backend/src/routes/debates.js:152-155 | filtering an order-sorted list by side keeps it sorted |
| Store.SortedPermutationUnique | backend/src/routes/debates.js:152 | two order-sorted permutations of a list with distinct orders are equal |
| Store.SideOfSortedIsStorageOrder | backend/src/routes/debates.js:152-155 | in any order-sorted arrangement a side numbered 1..n appears in storage order, however ties across sides are broken |
| Store.ArgumentsSurviveDebateUpdate | backend/src/routes/debates.js:118-123 | updating a debate without removing users or changing settings keeps every stored argument valid |
| Store.ArgumentsSurviveNewDebate | backend/src/routes/debates.js:26-36 | a newly stored debate has empty piles, so the argument invariant holds |
| Store.ArgumentsSurviveAppend | backend/src/routes/arguments.js:37-51 | an argument numbered `count + 1` and under the limit keeps every side's orders 1..n within the limit |
| Store.UserInsertKeepsValid | backend/src/routes/auth.js:34-35 | a user with a free email and username and balanced statistics, stored under the next id, keeps the store invariant |
| Store.DebateInsertKeepsValid | backend/src/routes/debates.js:26-36 | a well-formed debate stored under the next id keeps the store invariant |
| Store.DebateUpdateKeepsValid | backend/src/routes/debates.js:118-125 | replacing a debate by a well-formed one with the same settings and nobody removed keeps the store invariant |
| Store.CreditKeepsValid | backend/src/routes/debates.js:215-224 | crediting wins or losses keeps the store invariant |
| Store.ArgumentAppendKeepsValid | backend/src/routes/arguments.js:42-51 | an argument that fits, under the next id, numbered `count + 1` within the limit keeps the store invariant |
| Store.Database.AddUser | backend/src/routes/auth.js:34-35 | `newUser.save()`: the user is stored under a fresh id, nothing else changes, and the invariant holds |
| Store.Database.AddDebate | backend/src/routes/debates.js:26-36 | `debate.save()` of a new debate: stored under a fresh id, nothing else changes, and the invariant holds |
| Store.Database.ReplaceDebate | backend/src/routes/debates.js:125 | `debate.save()` of a changed debate: only that record changes, and the invariant holds |
| Store.Database.AddArgument | backend/src/routes/arguments.js:42-51 | `argument.save()`: the argument is appended under a fresh id, nothing else changes, and the invariant holds |
| Store.PileWithinLimit | backend/src/routes/arguments.js:37-40 | a stored side never holds more arguments than its limit |
| AuthRoutes.PublicViewHidesPassword | backend/src/routes/auth.js:39-47 | the user view carries nothing of the stored password |
| AuthRoutes.RegisterErrors | backend/src/routes/auth.js:16-23 | validation fails exactly for a trimmed username under 3, an invalid email or a password under 6, one message per failure |
| AuthRoutes.Register | backend/src/routes/auth.js:14-53 | the error order is validation, then email taken, then username taken; success inserts exactly one user with zeroed stats under a fresh id and keeps the store valid |
| AuthRoutes.LoginErrors | backend/src/routes/auth.js:60-66 | validation fails exactly for an invalid email or a missing password |
| AuthRoutes.Login | backend/src/routes/auth.js:58-93 | an unknown email and a wrong password give the same "Invalid credentials"; success exactly when a user with that email has a matching password |
| AuthRoutes.Me | backend/src/routes/auth.js:98-113 | the public view of a stored user, else 404 "User not found" |
| DebateRoutes.CreateErrors | backend/src/routes/debates.js:14-21 | validation fails exactly for a blank topic or a type outside {1v1, team}; each message is listed exactly when its own check fails |
| DebateRoutes.NewDebate | backend/src/routes/debates.js:26-34 | the record `new Debate(...)` builds; `NewDebateWellFormed` states its shape |
| DebateRoutes.NewDebateWellFormed | backend/src/routes/debates.js:26-34 | a new debate waits, with the creator alone on side A and side B empty; a supplied position is kept and a missing one becomes For/Against; missing settings take the defaults |
| DebateRoutes.CreateDebate | backend/src/routes/debates.js:14-43 | invalid input is rejected with the validator's messages; otherwise exactly the new debate is stored under a fresh id |
| DebateRoutes.ListDebates | backend/src/routes/debates.js:47-64 | a debate is listed exactly when it passes both filters: its status is named in a given status list, and a given user is on one of its sides; without filters every debate is listed |
| DebateRoutes.StatusFilterSelects | backend/src/routes/debates.js:49-62 | a comma-joined list of status names selects exactly the debates whose status is listed |
| DebateRoutes.GetDebate | backend/src/routes/debates.js:77-90 | the stored debate, else 404 "Debate not found" |
| DebateRoutes.JoinedDebate | backend/src/routes/debates.js:107-123 | the user is appended to the target side only; the debate activates, with `startedAt = now`, exactly when both sides are non-empty; every other field, the positions included, is unchanged |
| DebateRoutes.JoinKeepsWellFormed | backend/src/routes/debates.js:103-123 | a legal join keeps sides disjoint and duplicate-free; the debate starts exactly when the joiner takes side B |
| DebateRoutes.JoinDebate | backend/src/routes/debates.js:94-128 | rejected unless waiting, or when the user is already on the target or the other side; any side but "A" means B; success stores the joined debate |
| DebateRoutes.SideText | backend/src/routes/debates.js:152-155 | a side's contents from the order-sorted query, joined by spaces; `SideTextInSubmissionOrder` states what it is |
| DebateRoutes.SideTextInSubmissionOrder | backend/src/routes/debates.js:152-159 | a side's judging text is its arguments' contents in submission order joined by spaces, empty exactly when the side has no arguments |
| DebateRoutes.JudgeKeepsWellFormed | backend/src/routes/debates.js:168-181 | judging an active debate keeps it well formed, moves nobody, and puts the judgment's scores on the sides |
| DebateRoutes.JudgedDebate | backend/src/routes/debates.js:168-181 | the judgment, both side scores, completion status and time are copied from the AI reply; every other field is unchanged |
| DebateRoutes.Winners | backend/src/routes/debates.js:212 | side A's users when side A's score is the greater, else side B's; `TieCreditsSideB` and `VerdictAndStatsAgree` state the consequences |
| DebateRoutes.Losers | backend/src/routes/debates.js:213 | the users of the side that is not the winning one |
| DebateRoutes.TieCreditsSideB | backend/src/routes/debates.js:210-213 | on equal scores side B's users are the winners and side A's the losers |
| DebateRoutes.VerdictAndStatsAgree | backend/src/routes/debates.js:212 | the judge says side A exactly when side A is credited; on "equally persuasive" side B is credited |
| DebateRoutes.UpdateUserStats | backend/src/routes/debates.js:210-225 | the users become the old users credited once per winner and then once per loser |
| DebateRoutes.JudgingCreditsEachPlayerOnce | backend/src/routes/debates.js:210-224 | each participant of a judged debate gains exactly one game, a win on the winning side or a loss on the other |
| DebateRoutes.JudgeDebate | backend/src/routes/debates.js:136-192 | rejected unless active, if already judged, or if either side's text is empty; an AI failure is a 500 with `detail \|\| message \|\| 'Failed to judge debate'`; success completes the debate and credits its users |
| DebateRoutes.UserStats | backend/src/routes/debates.js:196-207 | the user's statistics, else 404 "User not found" |
| ArgumentRoutes.CreateErrors | backend/src/routes/arguments.js:10-18 | validation fails exactly for a missing debate id, blank content or a side outside {A, B}, one message per failure |
| ArgumentRoutes.CreateArgument | backend/src/routes/arguments.js:10-58 | the guards are checked in order (404, not active, 403, limit reached, invalid type); success appends one argument with trimmed content and `order = count + 1`, and keeps the store valid |
| ArgumentRoutes.ListArguments | backend/src/routes/arguments.js:62-72 | the debate's arguments, all of them and only them, sorted by order |
| ArgumentRoutes.ListingShowsSubmissionOrder | backend/src/routes/arguments.js:64-66 | in the listing each side's arguments appear in submission order, numbered 1, 2, … |
| SocketRooms.Without | backend/src/utils/socketHandler.js:53 | deleting a key leaves exactly the other keys |
| SocketRooms.JoinedKeepsValid | backend/src/utils/socketHandler.js:14-17 | joining keeps every stored room non-empty and the key order duplicate-free, and the socket is in the room |
| SocketRooms.JoinTwiceSameAsOnce | backend/src/utils/socketHandler.js:14-17 | a repeated join by the same socket changes nothing |
| SocketRooms.LeftKeepsValid | backend/src/utils/socketHandler.js:45-55 | leaving keeps the table valid and the socket is no longer in the room |
| SocketRooms.DisconnectSnoc | backend/src/utils/socketHandler.js:110-122 | visiting one more room extends the table and the emitted counts by that room's visit alone |
| SocketRooms.DisconnectFromEffect | backend/src/utils/socketHandler.js:110-122 | after visiting distinct rooms, each visited room lost the socket or was deleted when emptied, and unvisited rooms are unchanged |
| SocketRooms.DisconnectLeavesNoTrace | backend/src/utils/socketHandler.js:110-122 | after disconnect the socket is in no room; only rooms it held alone are gone; others keep their other members |
| SocketRooms.RoomRegistry.Join | backend/src/utils/socketHandler.js:10-34 | the room is created if new and the socket added; the reported count is the room's size; no empty room is stored |
| SocketRooms.RoomRegistry.Leave | backend/src/utils/socketHandler.js:42-58 | an unknown room leaves the map unchanged and reports nothing; otherwise the socket is removed, the new size reported and an emptied room deleted |
| SocketRooms.RoomRegistry.Visit | backend/src/utils/socketHandler.js:111-121 | one loop visit: a room holding the socket loses it, is deleted if emptied, and its remaining size is reported; any other room is left alone |
| SocketRooms.DisconnectEventsCount | backend/src/utils/socketHandler.js:111-121 | over distinct rooms, the loop reports for each room holding the socket, in visiting order, that room's size before the disconnect less one |
| SocketRooms.RoomRegistry.Disconnect | backend/src/utils/socketHandler.js:109-125 | every room holding the socket loses it and is deleted if emptied; no empty room remains; the `participant-left` counts are, in insertion order, one per room that held the socket, its size less one |
| SocketRooms.FindArgument | backend/src/utils/socketHandler.js:64-67 | the stored argument with that id, or none when no argument has it |
| SocketRooms.NewArgument | backend/src/utils/socketHandler.js:60-81 | the argument is broadcast first; readiness is announced exactly when both sides' counts reach the limit; an unknown debate is an error |
| SocketRooms.ReadyMeansFull | backend/src/utils/socketHandler.js:69-77 | in a valid store readiness means both sides hold exactly the limit; with a limit of 0 or less it is announced at once |
| JudgeService.Escape | ai_service/ai_judge_free.py:52-55 | `re.sub` over the text: each control character is replaced by its escape and every other character is copied; the `Escape*` lemmas state its properties |
| JudgeService.EscapeControl | ai_service/ai_judge_free.py:53-54 | a control character becomes `\u00` and two lowercase hex digits encoding its code |
| JudgeService.EscapeRemovesControl | ai_service/ai_judge_free.py:52-55 | the escaped text has no character in U+0000–U+001F |
| JudgeService.EscapeLength | ai_service/ai_judge_free.py:52-55 | escaping lengthens the text by exactly 5 per control character |
| JudgeService.EscapeIdentityIffNoControl | ai_service/ai_judge_free.py:52-55 | text is copied unchanged exactly when it has no control character |
| JudgeService.EscapeIdempotent | ai_service/ai_judge_free.py:52-55 | escaping twice equals escaping once |
| JudgeService.EscapeAppend | ai_service/ai_judge_free.py:55 | escaping is character by character: it distributes over concatenation |
| JudgeService.ModelName | ai_service/ai_judge_free.py:21 | `MODEL_NAME` when set, else the distilbart default |
| JudgeService.ModelCache.LoadModel | ai_service/ai_judge_free.py:32-42 | the pipeline is built only when the cache is empty; later calls return the cached one and build nothing |
| JudgeService.VerdictTextInjective | ai_service/ai_judge_free.py:72-77 | the three verdict texts are distinct |
| JudgeService.SelectVerdict | ai_service/ai_judge_free.py:72-77 | side A exactly when a > b, side B exactly when b > a, equal exactly when a = b |
| JudgeService.SelectVerdictSwap | ai_service/ai_judge_free.py:72-77 | swapping the scores swaps the verdict |
| JudgeService.Reasoning | ai_service/ai_judge_free.py:79-83 | the reasoning line from the two top labels and the verdict; `ReasoningDetermined` shows it reads back |
| JudgeService.ReadField | ai_service/ai_judge_free.py:79-83 | a `|`-free field followed by ` \|` is readable back from the line |
| JudgeService.ReadTwoFields | ai_service/ai_judge_free.py:79-83 | two `\|`-free fields, each followed by a separator starting ` \|`, are read back from the line |
| JudgeService.ReasoningDetermined | ai_service/ai_judge_free.py:79-83 | the reasoning line determines both top labels and the verdict |
| JudgeService.RoundHalfEven | ai_service/ai_judge_free.py:49 | the integer nearest the value, within one half; a value exactly halfway goes to the even integer |
| JudgeService.Round2 | ai_service/ai_judge_free.py:49 | `round(score, 2)`: a multiple of 1/100 within 0.005 of the value; a value exactly halfway goes to the even multiple |
| JudgeService.StrictScore | ai_service/ai_judge_free.py:45-49 | the score lies within 0.005 of `top ** 3 * 100 + noise` |
| JudgeService.StrictScoreRange | ai_service/ai_judge_free.py:45-49 | a confidence in [0, 1] and noise in [-2, 2] give a score in [-2.005, 102.005] |
| JudgeService.HigherConfidenceWins | ai_service/ai_judge_free.py:69-77 | with equal noise, a top confidence higher by at least 0.1 wins the verdict, whatever labels the two sides rank first |
| JudgeService.AssembleResponse | ai_service/ai_judge_free.py:85-97 | the response carries topic, both scores, the selected verdict and the reasoning; a raised recording gives a null hash |
| JudgeService.RecordingFailureKeepsJudgment | ai_service/ai_judge_free.py:85-97 | a failed recording changes nothing in the response but the hash |
| JudgeService.Judge | ai_service/ai_judge_free.py:58-97 | loads the cached model, classifies both sides with the five criteria, scores each side from its own top confidence and noise, and answers exactly when both evaluations have a top confidence and a top label |
| LedgerRecorder.StripIfSet | ai_service/blockchain_record.py:24-29 | a set value is stripped of surrounding whitespace; an unset one stays unset |
| LedgerRecorder.NormalizeKey | ai_service/blockchain_record.py:56-57 | the key always starts with `0x`, which is added only when missing |
| LedgerRecorder.NormalizeKeyIdempotent | ai_service/blockchain_record.py:56-57 | normalising twice equals normalising once |
| LedgerRecorder.ChooseAbi | ai_service/blockchain_record.py:68-79 | without `CONTRACT_ABI_JSON` the ABI is the single nonpayable `storeData(string data)` |
| LedgerRecorder.LoadConfig | ai_service/blockchain_record.py:17-81 | startup errors come in order: URL, connection, key, public address, its checksum, contract address, its checksum, ABI JSON; success gives the stripped, prefixed and checksummed configuration |
| LedgerRecorder.BlankKeyIsMissing | ai_service/blockchain_record.py:24-55 | a whitespace-only key is stripped to nothing and is then reported missing |
| LedgerRecorder.Payload | ai_service/blockchain_record.py:89 | the four fields joined by `\|`; `PayloadDetermined` shows when it reads back |
| LedgerRecorder.PayloadDetermined | ai_service/blockchain_record.py:89 | with `|`-free scores and verdict, the payload determines topic, both scores and verdict |
| LedgerRecorder.TransactionFields | ai_service/blockchain_record.py:97-102 | from = public address, the queried nonce, gas 200000, gas price 10 000 000 000 wei |
| LedgerRecorder.HexPairs | ai_service/blockchain_record.py:107 | two lowercase hex digits per byte |
| LedgerRecorder.ToHex | ai_service/blockchain_record.py:107 | `0x` followed by two digits per byte |
| LedgerRecorder.HexRoundTrip | ai_service/blockchain_record.py:107 | the hex text reads back as the bytes it was made from |
| LedgerRecorder.StoreAiResult | ai_service/blockchain_record.py:83-111 | the `storeData` transaction carries the payload's digest and the fixed fields and is signed with the configured key; a hash, in hex, only when the send answered |
| LedgerRecorder.RecordingSucceedsIffAllCallsAnswer | ai_service/blockchain_record.py:88-111 | a hash is returned exactly when every outside call answered; any failure gives None |
| SessionStore.TokenIn | frontend/src/lib/auth.ts:17-20 | null without a window, else the stored `token` item |
| SessionStore.UserIn | frontend/src/lib/auth.ts:32-36 | null without a window or a non-empty `user` item, else what `JSON.parse` yields or throws |
| SessionStore.IsTokenValid | frontend/src/lib/auth.ts:43-51 | true exactly when the token decodes to an expiry with `exp * 1000 > now` |
| SessionStore.ValidityIsMonotone | frontend/src/lib/auth.ts:47 | a token valid now was valid at every earlier time |
| SessionStore.Browser.IsAuthenticated | frontend/src/lib/auth.ts:54-57 | false with no or an empty token, else the token's validity |
| SessionStore.Browser.SetToken | frontend/src/lib/auth.ts:22-24 | stores the token, so `getToken` returns it |
| SessionStore.Browser.SetUser | frontend/src/lib/auth.ts:38-40 | stores the user's JSON, which `getUser` parses back |
| SessionStore.Browser.RemoveToken | frontend/src/lib/auth.ts:26-29 | removes exactly the `token` and `user` items and keeps every other item |

## Left out

- Mongoose `populate`, the debate listing's `sort('-createdAt')` and `limit(50)`: `ListDebates` returns the set of matching ids.
- Malformed ids and storage failures: Mongo's CastError and other storage errors are not modelled, and every storage call succeeds. In the source, most route handlers turn them into a 500 in their `catch`. `updateUserStats` catches and logs its own errors instead, so the judge route still answers 200 with the completed debate while users may be only partly credited. The socket handlers emit an `error` event. Ids are model numbers drawn from a counter.
- Express routing and middleware. The authenticated user id is a parameter. In the router, `GET /:id` is registered before `GET /user-stats`, so a request for `/user-stats` reaches the `/:id` handler. `DebateRoutes.UserStats` models the handler's own logic only.
- backend/src/models/User.js is not part of this model. Password hashing is the `hashPassword` parameter, and new users start from zeroed statistics.
- Concurrency: each handler runs atomically. Two interleaved submissions could read the same count, duplicate an order or pass the limit. The nonce race between concurrent recordings is not modelled, and neither are `asyncio.gather`/`to_thread`.
- socket.io delivery: `socket.join`/`leave`, `debate-state`, `typing`, `stop-typing` and `debate-judged` relays are left out. Emitted counts and events are returned values.
- The classifier and `random.uniform` are outside the model: each side's evaluation and noise are parameters. `calculate_strict_score` is computed on exact reals: no float rounding error, no NaN. `round` is applied to the exact value, while Python rounds the nearest binary float.
- LedgerRecorder.StoreAiResult: a topic holding a lone surrogate makes `result_data.encode()` raise, and the source then returns None. A Dafny `char` cannot hold a surrogate, so that path is not modelled.
- Python's formatting of float scores inside the payload: the payload takes the two score texts as given.
- Web3, `hashlib.sha256`, checksumming, signing, broadcasting, `json.loads`, `jwtDecode`, `JSON.stringify`/`parse`, bcrypt and `isEmail` are function parameters. Logging is dropped.
- Whitespace: `Text.Trim` removes the six ASCII whitespace characters (tab, line feed, vertical tab, form feed, carriage return, space). Python `strip` also removes the ASCII separators U+001C–U+001F and the Unicode spaces; JavaScript `trim` also removes the Unicode spaces (U+00A0, U+FEFF, the line and paragraph separators and the `Zs` category).
- Length checks: `AuthRoutes.RegisterErrors` counts the trimmed username and the password in code points. validator.js `isLength` also counts code points but leaves out U+FE0E and U+FE0F, so a name padded with those selectors can pass in the model and fail in the service.
- SessionStore.UserIn: a stored `user` item that parses to something that is not a user, such as `null` or `5`, is not modelled. The `parse` parameter either yields a user or throws.
- DebateModel.ParseDebateType: the schema default "1v1" is not modelled. The create route rejects a missing type before the schema could apply it.
- The `cancelled` status is never set by any handler, so the store invariant excludes it.
- DebateRoutes.JudgeDebate: an AI reply missing some fields is not modelled. The reply is either all fields or a failure.
- SessionStore.Browser.SetToken, SetUser and RemoveToken require a window: without one `localStorage` is undefined and the call throws.
- JudgeService.ModelCache.LoadModel: a failure while building the pipeline (download, memory) is not modelled.
- SessionStore.IsTokenValid: `exp` is an integer number of seconds. A non-numeric `exp` is not modelled.

=== FILE: argument_model.dfy ===
/** The Argument record (backend/src/models/Argument.js): which debate and user it
    belongs to, its side and type enums, its trimmed content and its per-side order. */
module ArgumentModel {
  import opened Common

  datatype SideLabel = A | B

  datatype ArgumentType = Opening | Plain | Rebuttal | Closing

  function SideName(s: SideLabel): string
  {
    match s
    case A => "A"
    case B => "B"
  }

  /** The `side` enum: only "A" and "B" are accepted. */
  function ParseSide(name: string): (r: Option<SideLabel>)
    ensures r.Some? ==> SideName(r.value) == name
    ensures forall s: SideLabel :: SideName(s) == name ==> r == Some(s)
  {
    if name == "A" then Some(A) else if name == "B" then Some(B) else None
  }

  function ArgumentTypeName(t: ArgumentType): string
  {
    match t
    case Opening => "opening"
    case Plain => "argument"
    case Rebuttal => "rebuttal"
    case Closing => "closing"
  }

  /** The requested `type`, after the handler's `type || 'argument'` fallback, checked
      against the schema enum. A missing or empty type becomes "argument"; any other
      value outside the enum is rejected when the record is saved. */
  function ParseArgumentType(requested: Option<string>): (r: Option<ArgumentType>)
    ensures !Truthy(requested) ==> r == Some(Plain)
    ensures Truthy(requested) && r.Some? ==> ArgumentTypeName(r.value) == requested.value
    ensures Truthy(requested) ==> forall t: ArgumentType :: ArgumentTypeName(t) == requested.value ==> r == Some(t)
  {
    var name := OrElse(requested, "argument");
    if name == "opening" then Some(Opening)
    else if name == "argument" then Some(Plain)
    else if name == "rebuttal" then Some(Rebuttal)
    else if name == "closing" then Some(Closing)
    else None
  }

  datatype Argument = Argument(
    id: Id,
    debateId: Id,
    userId: Id,
    side: SideLabel,
    content: string,
    argType: ArgumentType,
    order: int,
    createdAt: Timestamp)
}

=== FILE: argument_routes.dfy ===
/** The argument routes of backend/src/routes/arguments.js: submitting an argument
    to one side of an active debate, and listing a debate's arguments by order. */
module ArgumentRoutes {
  import opened Common
  import opened Text
  import opened DebateModel
  import opened ArgumentModel
  import opened Store

  const DebateIdRequired := "Debate ID required"
  const ContentRequired := "Content required"
  const InvalidSide := "Invalid side"
  const DebateNotFound := "Debate not found"
  const DebateNotActive := "Debate not active"
  const NotAParticipant := "Not a participant of this side"
  const ArgumentLimitReached := "Argument limit reached"

  /** The body of POST /: every field may be missing. */
  datatype CreateArgumentRequest = CreateArgumentRequest(
    debateId: Option<Id>,
    content: string,
    side: Option<string>,
    argType: Option<string>)

  /** The validator's messages: a missing debate id, content that is blank after
      trimming, and a side outside {"A", "B"}; each message is listed exactly when
      its check fails. */
  function CreateErrors(req: CreateArgumentRequest): (errs: seq<string>)
    ensures errs == [] <==>
      req.debateId.Some? && Trim(req.content) != [] && req.side.Some? && ParseSide(req.side.value).Some?
    ensures DebateIdRequired in errs <==> req.debateId.None?
    ensures ContentRequired in errs <==> Trim(req.content) == []
    ensures InvalidSide in errs <==> req.side.None? || ParseSide(req.side.value).None?
  {
    var noId, blank := req.debateId.None?, Trim(req.content) == [];
    var badSide := req.side.None? || ParseSide(req.side.value).None?;
    assert DebateIdRequired[0] != ContentRequired[0] && DebateIdRequired[0] != InvalidSide[0];
    assert ContentRequired[0] != InvalidSide[0];
    ListedIffFailed(noId, DebateIdRequired, blank, ContentRequired, badSide, InvalidSide);
    Flag(noId, DebateIdRequired) + Flag(blank, ContentRequired) + Flag(badSide, InvalidSide)
  }

  /** The message Mongoose gives when saving an argument whose type is outside the
      enum; the handler returns it with status 500. */
  function TypeRejected(name: string): string
  {
    "Argument validation failed: type: `" + name + "` is not a valid enum value for path `type`."
  }

  /** POST /: the guards run in the handler's order (debate exists, is active, the
      user is on the chosen side, the side is under its limit); the new argument is
      numbered one past the side's count. */
  method CreateArgument(db: Database, userId: Id, req: CreateArgumentRequest, now: Timestamp)
    returns (r: Response<Argument>)
    requires db.Valid()
    modifies db
    ensures db.Valid()
    ensures db.users == old(db.users) && db.debates == old(db.debates)
    ensures CreateErrors(req) != [] ==> r == Err(400, Validation(CreateErrors(req)))
    ensures CreateErrors(req) == [] ==>
      var id, s := req.debateId.value, ParseSide(req.side.value).value;
      && (id !in db.debates ==> r == Err(404, Message(DebateNotFound)))
      && (id in db.debates ==>
            var d, pile := db.debates[id], SideArguments(old(db.arguments), id, s);
            && (d.status != Active ==> r == Err(400, Message(DebateNotActive)))
            && (d.status == Active && userId !in SideUsers(d, s == A) ==> r == Err(403, Message(NotAParticipant)))
            && (d.status == Active && userId in SideUsers(d, s == A) && |pile| >= d.settings.argumentLimit ==>
                  r == Err(400, Message(ArgumentLimitReached)))
            && (d.status == Active && userId in SideUsers(d, s == A) && |pile| < d.settings.argumentLimit &&
                ParseArgumentType(req.argType).None? ==>
                  r == Err(500, Message(TypeRejected(req.argType.value))))
            && (r.Ok? <==>
                  d.status == Active && userId in SideUsers(d, s == A) && |pile| < d.settings.argumentLimit &&
                  ParseArgumentType(req.argType).Some?)
            && (r.Ok? ==>
                  && r.value == Argument(old(db.nextId), id, userId, s, Trim(req.content),
                                         ParseArgumentType(req.argType).value, |pile| + 1, now)
                  && db.arguments == old(db.arguments) + [r.value]))
    ensures r.Err? ==> db.arguments == old(db.arguments)
  {
    var errs := CreateErrors(req);
    if errs != [] {
      return Err(400, Validation(errs));
    }
    var id, s := req.debateId.value, ParseSide(req.side.value).value;
    if id !in db.debates {
      return Err(404, Message(DebateNotFound));
    }
    var d := db.debates[id];
    if d.status != Active {
      return Err(400, Message(DebateNotActive));
    }
    if userId !in SideUsers(d, s == A) {
      return Err(403, Message(NotAParticipant));
    }
    var count := |SideArguments(db.arguments, id, s)|;
    if count >= d.settings.argumentLimit {
      return Err(400, Message(ArgumentLimitReached));
    }
    var t := ParseArgumentType(req.argType);
    if t.None? {
      return Err(500, Message(TypeRejected(req.argType.value)));
    }
    var a := Argument(db.nextId, id, userId, s, Trim(req.content), t.value, count + 1, now);
    db.AddArgument(a);
    r := Ok(a);
  }

  /** GET /debate/:debateId: the debate's arguments sorted by order. */
  function ListArguments(xs: seq<Argument>, debateId: Id): (r: seq<Argument>)
    ensures SortedByOrder(r)
    ensures multiset(r) == multiset(OfDebate(xs, debateId))
    ensures forall k :: 0 <= k < |r| ==> r[k].debateId == debateId && r[k] in xs
  {
    var r := SortByOrder(OfDebate(xs, debateId));
    assert forall k :: 0 <= k < |r| ==> r[k] in multiset(OfDebate(xs, debateId));
    r
  }

  /** In a well-formed collection the listing shows each side's arguments in the
      order they were submitted, numbered 1, 2, ... */
  lemma ListingShowsSubmissionOrder(xs: seq<Argument>, debates: map<Id, Debate>, d: Id, s: SideLabel)
    requires ArgumentsWellFormed(xs, debates) && d in debates
    ensures OnSide(ListArguments(xs, d), s) == SideArguments(xs, d, s)
    ensures forall k :: 0 <= k < |SideArguments(xs, d, s)| ==> SideArguments(xs, d, s)[k].order == k + 1
  {
    assert PileWellFormed(SideArguments(xs, d, s), debates[d].settings.argumentLimit);
    SideOfSortedIsStorageOrder(OfDebate(xs, d), ListArguments(xs, d), s);
  }
}

=== FILE: auth_routes.dfy ===
/** The account routes of backend/src/routes/auth.js: register (validate, check that
    the email and then the username are free, insert), login and `/me`. Password
    hashing, password comparison, token signing and the email-syntax check belong
    to libraries and arrive as function parameters. */
module AuthRoutes {
  import opened Common
  import opened Text
  import opened Store

  const MinUsernameLength := 3
  const MinPasswordLength := 6

  const UsernameTooShort := "Username must be at least 3 characters"
  const EmailInvalid := "Valid email required"
  const PasswordTooShort := "Password must be at least 6 characters"
  const PasswordMissing := "Password required"
  const EmailRegistered := "Email already registered"
  const UsernameInUse := "Username already taken"
  const InvalidCredentials := "Invalid credentials"
  const UserNotFound := "User not found"

  /** The user as every auth response shows it: id, username, email and statistics. */
  datatype PublicUser = PublicUser(id: Id, username: string, email: string, debateStats: DebateStats)

  /** `{ token, user }`. */
  datatype AuthReply = AuthReply(token: string, user: PublicUser)

  function PublicView(id: Id, u: User): PublicUser
  {
    PublicUser(id, u.username, u.email, u.debateStats)
  }

  /** The public view carries nothing of the stored password: two users that differ
      only in their password look the same. */
  lemma PublicViewHidesPassword(id: Id, u: User, other: string)
    ensures PublicView(id, u.(password := other)) == PublicView(id, u)
  {
  }

  /** The validator's messages for a registration, in field order. The username is
      measured after trimming. */
  function RegisterErrors(username: string, email: string, password: string, isEmail: string -> bool): (errs: seq<string>)
    ensures errs == [] <==> |Trim(username)| >= MinUsernameLength && isEmail(email) && |password| >= MinPasswordLength
    ensures UsernameTooShort in errs <==> |Trim(username)| < MinUsernameLength
    ensures EmailInvalid in errs <==> !isEmail(email)
    ensures PasswordTooShort in errs <==> |password| < MinPasswordLength
    ensures |errs| <= 3
  {
    var short, invalid, weak := |Trim(username)| < MinUsernameLength, !isEmail(email), |password| < MinPasswordLength;
    assert UsernameTooShort[0] != EmailInvalid[0] && UsernameTooShort[0] != PasswordTooShort[0];
    assert EmailInvalid[0] != PasswordTooShort[0];
    ListedIffFailed(short, UsernameTooShort, invalid, EmailInvalid, weak, PasswordTooShort);
    Flag(short, UsernameTooShort) + Flag(invalid, EmailInvalid) + Flag(weak, PasswordTooShort)
  }

  /** POST /register. A taken email is reported before a taken username; on success
      exactly one user is added, under a fresh id, with zeroed statistics. */
  method Register(db: Database, username: string, email: string, password: string,
                  isEmail: string -> bool, hashPassword: string -> string, signToken: Id -> string)
    returns (r: Response<AuthReply>)
    requires db.Valid()
    modifies db
    ensures db.Valid()
    ensures db.debates == old(db.debates) && db.arguments == old(db.arguments)
    ensures var errs := RegisterErrors(username, email, password, isEmail);
      && (errs != [] ==> r == Err(400, Validation(errs)))
      && (errs == [] && EmailTaken(old(db.users), email) ==> r == Err(400, Message(EmailRegistered)))
      && (errs == [] && !EmailTaken(old(db.users), email) && UsernameTaken(old(db.users), Trim(username)) ==>
            r == Err(400, Message(UsernameInUse)))
      && (r.Ok? <==> errs == [] && !EmailTaken(old(db.users), email) && !UsernameTaken(old(db.users), Trim(username)))
    ensures r.Err? ==> db.users == old(db.users)
    ensures r.Ok? ==>
      var id := r.value.user.id;
      && id !in old(db.users)
      && db.users == old(db.users)[id := User(Trim(username), email, hashPassword(password), ZeroStats)]
      && r.value == AuthReply(signToken(id), PublicView(id, db.users[id]))
  {
    var errs := RegisterErrors(username, email, password, isEmail);
    if errs != [] {
      return Err(400, Validation(errs));
    }
    var name := Trim(username);
    if EmailTaken(db.users, email) {
      return Err(400, Message(EmailRegistered));
    }
    if UsernameTaken(db.users, name) {
      return Err(400, Message(UsernameInUse));
    }
    var user := User(name, email, hashPassword(password), ZeroStats);
    var id := db.AddUser(user);
    r := Ok(AuthReply(signToken(id), PublicView(id, user)));
  }

  function LoginErrors(email: string, password: Option<string>, isEmail: string -> bool): (errs: seq<string>)
    ensures errs == [] <==> isEmail(email) && password.Some?
    ensures EmailInvalid in errs <==> !isEmail(email)
    ensures PasswordMissing in errs <==> password.None?
  {
    assert EmailInvalid[0] != PasswordMissing[0];
    (if !isEmail(email) then [EmailInvalid] else []) +
    (if password.None? then [PasswordMissing] else [])
  }

  /** POST /login. An unknown email and a wrong password give the same error, so
      the reply does not reveal which emails are registered. */
  method Login(db: Database, email: string, password: Option<string>, isEmail: string -> bool,
               comparePassword: (string, string) -> bool, signToken: Id -> string)
    returns (r: Response<AuthReply>)
    requires db.Valid()
    ensures var errs := LoginErrors(email, password, isEmail);
      && (errs != [] ==> r == Err(400, Validation(errs)))
      && (errs == [] && r.Err? ==> r == Err(400, Message(InvalidCredentials)))
    ensures r.Ok? <==>
      && LoginErrors(email, password, isEmail) == []
      && exists id :: id in db.users && db.users[id].email == email && comparePassword(password.value, db.users[id].password)
    ensures r.Ok? ==>
      var id := r.value.user.id;
      && id in db.users && db.users[id].email == email
      && r.value == AuthReply(signToken(id), PublicView(id, db.users[id]))
  {
    var errs := LoginErrors(email, password, isEmail);
    if errs != [] {
      return Err(400, Validation(errs));
    }
    if !EmailTaken(db.users, email) {
      return Err(400, Message(InvalidCredentials));
    }
    var id :| id in db.users && db.users[id].email == email;
    var user := db.users[id];
    if !comparePassword(password.value, user.password) {
      return Err(400, Message(InvalidCredentials));
    }
    r := Ok(AuthReply(signToken(id), PublicView(id, user)));
  }

  /** GET /me for the user id carried by the request's token. */
  method Me(db: Database, userId: Id) returns (r: Response<PublicUser>)
    ensures userId in db.users ==> r == Ok(PublicView(userId, db.users[userId]))
    ensures userId !in db.users ==> r == Err(404, Message(UserNotFound))
  {
    if userId !in db.users {
      return Err(404, Message(UserNotFound));
    }
    r := Ok(PublicView(userId, db.users[userId]));
  }
}

=== FILE: common.dfy ===
/** Small shared vocabulary: optional values, record ids, clock readings and the
    shape of an HTTP reply produced by the Express handlers. */
module Common {

  datatype Option<+T> = None | Some(value: T)

  /** A Mongo ObjectId. The model allocates ids from a counter, so a fresh id is a
      number no record uses yet. */
  type Id = nat

  /** A reading of the clock (`new Date()`, `Date.now`), always passed in by the caller. */
  type Timestamp = int

  /** JSON error bodies: `{ error: message }` or the validator's `{ errors: [...] }`. */
  datatype ErrorBody = Message(error: string) | Validation(errors: seq<string>)

  /** What an async route handler sends: a success body, or a status code and error body. */
  datatype Response<+T> = Ok(value: T) | Err(status: nat, body: ErrorBody)

  /** JavaScript truthiness of an optional string: undefined, null and "" are falsy. */
  predicate Truthy(s: Option<string>)
  {
    s.Some? && s.value != ""
  }

  /** `s || fallback` for an optional string. */
  function OrElse(s: Option<string>, fallback: string): (r: string)
    ensures Truthy(s) ==> r == s.value
    ensures !Truthy(s) ==> r == fallback
  {
    if Truthy(s) then s.value else fallback
  }

  /** A validator check's contribution to the error list: its message when it fails. */
  function Flag(failed: bool, message: string): seq<string>
  {
    if failed then [message] else []
  }

  /** Three checks with distinct messages: the list is empty exactly when none
      failed, and each message is listed exactly when its own check failed. */
  lemma ListedIffFailed(f1: bool, m1: string, f2: bool, m2: string, f3: bool, m3: string)
    requires m1 != m2 && m1 != m3 && m2 != m3
    ensures var errs := Flag(f1, m1) + Flag(f2, m2) + Flag(f3, m3);
      && (errs == [] <==> !f1 && !f2 && !f3)
      && (m1 in errs <==> f1) && (m2 in errs <==> f2) && (m3 in errs <==> f3)
  {
  }
}

=== FILE: debate_model.dfy ===
/** The Debate record (backend/src/models/Debate.js): its enums, the defaults the
    schema fills in, and the optional AI judgment sub-record. */
module DebateModel {
  import opened Common

  /** A persuasiveness score. Only `>` and equality are used on it, so an ordered
      number type stands for the floating-point scores (no NaN). */
  type Score = real

  datatype Status = Waiting | Active | Completed | Cancelled

  datatype DebateType = OneVsOne | Team

  /** The schema's `status` enum spelled as stored. */
  function StatusName(s: Status): string
  {
    match s
    case Waiting => "waiting"
    case Active => "active"
    case Completed => "completed"
    case Cancelled => "cancelled"
  }

  /** Reading a stored status string back; anything outside the enum is rejected. */
  function ParseStatus(name: string): (r: Option<Status>)
    ensures r.Some? ==> StatusName(r.value) == name
    ensures forall s: Status :: StatusName(s) == name ==> r == Some(s)
  {
    if name == "waiting" then Some(Waiting)
    else if name == "active" then Some(Active)
    else if name == "completed" then Some(Completed)
    else if name == "cancelled" then Some(Cancelled)
    else None
  }

  function DebateTypeName(t: DebateType): string
  {
    match t
    case OneVsOne => "1v1"
    case Team => "team"
  }

  /** The `type` enum: only "1v1" and "team" are accepted. */
  function ParseDebateType(name: string): (r: Option<DebateType>)
    ensures r.Some? ==> DebateTypeName(r.value) == name
    ensures forall t: DebateType :: DebateTypeName(t) == name ==> r == Some(t)
  {
    if name == "1v1" then Some(OneVsOne)
    else if name == "team" then Some(Team)
    else None
  }

  datatype Settings = Settings(timeLimit: int, argumentLimit: int, isPrivate: bool)

  const DefaultTimeLimit := 300
  const DefaultArgumentLimit := 5

  /** The `settings` object a client may send; every field is optional. */
  datatype SettingsInput = SettingsInput(timeLimit: Option<int>, argumentLimit: Option<int>, isPrivate: Option<bool>)

  /** Mongoose fills each missing setting with its default: 300 seconds per turn,
      5 arguments per side, public. A supplied value is kept as given. */
  function ApplySettingsDefaults(input: Option<SettingsInput>): (s: Settings)
    ensures input.None? ==> s == Settings(DefaultTimeLimit, DefaultArgumentLimit, false)
    ensures input.Some? && input.value.timeLimit.Some? ==> s.timeLimit == input.value.timeLimit.value
    ensures input.Some? && input.value.timeLimit.None? ==> s.timeLimit == DefaultTimeLimit
    ensures input.Some? && input.value.argumentLimit.Some? ==> s.argumentLimit == input.value.argumentLimit.value
    ensures input.Some? && input.value.argumentLimit.None? ==> s.argumentLimit == DefaultArgumentLimit
    ensures input.Some? && input.value.isPrivate.Some? ==> s.isPrivate == input.value.isPrivate.value
    ensures input.Some? && input.value.isPrivate.None? ==> !s.isPrivate
  {
    var i := if input.Some? then input.value else SettingsInput(None, None, None);
    Settings(
      if i.timeLimit.Some? then i.timeLimit.value else DefaultTimeLimit,
      if i.argumentLimit.Some? then i.argumentLimit.value else DefaultArgumentLimit,
      if i.isPrivate.Some? then i.isPrivate.value else false)
  }

  /** One side of a debate: the users on it, its position and, once judged, its score. */
  datatype DebateSide = DebateSide(users: seq<Id>, position: string, score: Option<Score>)

  /** What the AI judge returned, copied into the debate. */
  datatype AiJudgment = AiJudgment(
    verdict: string,
    reasoning: string,
    sideAScore: Score,
    sideBScore: Score,
    transactionHash: Option<string>,
    judgedAt: Timestamp)

  datatype Debate = Debate(
    topic: string,
    description: Option<string>,
    debateType: DebateType,
    status: Status,
    sideA: DebateSide,
    sideB: DebateSide,
    settings: Settings,
    aiJudgment: Option<AiJudgment>,
    createdBy: Id,
    startedAt: Option<Timestamp>,
    completedAt: Option<Timestamp>,
    createdAt: Timestamp)

  /** The guard `debate.aiJudgment && debate.aiJudgment.verdict`: a judgment with a
      non-empty verdict is present. */
  predicate AlreadyJudged(d: Debate)
  {
    d.aiJudgment.Some? && d.aiJudgment.value.verdict != ""
  }

  /** The users of side A when `toA`, else of side B. */
  function SideUsers(d: Debate, toA: bool): seq<Id>
  {
    if toA then d.sideA.users else d.sideB.users
  }
}

=== FILE: debate_routes.dfy ===
/** The debate routes of backend/src/routes/debates.js: create, list with a status
    filter, fetch, join, judge, and the win/loss bookkeeping done after judging.
    The AI judge service is reached over HTTP; here its answer is a function of the
    request the handler sends. */
module DebateRoutes {
  import opened Common
  import opened Text
  import opened DebateModel
  import opened ArgumentModel
  import opened Store
  import JudgeService

  const TopicRequired := "Topic required"
  const InvalidDebateType := "Invalid debate type"
  const DebateNotFound := "Debate not found"
  const AlreadyStarted := "Debate already started"
  const AlreadyOnThisSide := "Already joined this side"
  const AlreadyOnOtherSide := "Already joined the other side"
  const NotReadyForJudging := "Debate not ready for judging"
  const AlreadyJudgedMessage := "Debate already judged"
  const BothSidesNeedArguments := "Both sides must have arguments"
  const JudgeFailed := "Failed to judge debate"
  const UserNotFound := "User not found"

  // ---------------------------------------------------------------------------
  // POST / : create

  datatype CreateDebateRequest = CreateDebateRequest(
    topic: string,
    description: Option<string>,
    debateType: Option<string>,
    settings: Option<SettingsInput>,
    sideAPosition: Option<string>,
    sideBPosition: Option<string>)

  /** The validator's messages: a topic that is blank after trimming, and a type
      outside {"1v1", "team"} (a missing type included). */
  function CreateErrors(req: CreateDebateRequest): (errs: seq<string>)
    ensures errs == [] <==> Trim(req.topic) != [] && req.debateType.Some? && ParseDebateType(req.debateType.value).Some?
    ensures TopicRequired in errs <==> Trim(req.topic) == []
    ensures InvalidDebateType in errs <==> req.debateType.None? || ParseDebateType(req.debateType.value).None?
  {
    assert TopicRequired[0] != InvalidDebateType[0];
    (if Trim(req.topic) == [] then [TopicRequired] else []) +
    (if req.debateType.None? || ParseDebateType(req.debateType.value).None? then [InvalidDebateType] else [])
  }

  /** The record `new Debate(...)` builds for a validated request. */
  function NewDebate(req: CreateDebateRequest, t: DebateType, creator: Id, now: Timestamp): Debate
  {
    Debate(
      Trim(req.topic), req.description, t, Waiting,
      DebateSide([creator], OrElse(req.sideAPosition, "For"), None),
      DebateSide([], OrElse(req.sideBPosition, "Against"), None),
      ApplySettingsDefaults(req.settings), None, creator, None, None, now)
  }

  /** A new debate waits with its creator alone on side A and nobody on side B, and
      already has the shape every stored debate keeps. */
  lemma NewDebateWellFormed(req: CreateDebateRequest, t: DebateType, creator: Id, now: Timestamp)
    requires Trim(req.topic) != []
    ensures var d := NewDebate(req, t, creator, now);
      && DebateWellFormed(d)
      && d.status == Waiting && d.sideA.users == [creator] && d.sideB.users == []
      && (Truthy(req.sideAPosition) ==> d.sideA.position == req.sideAPosition.value)
      && (!Truthy(req.sideAPosition) ==> d.sideA.position == "For")
      && (Truthy(req.sideBPosition) ==> d.sideB.position == req.sideBPosition.value)
      && (!Truthy(req.sideBPosition) ==> d.sideB.position == "Against")
      && (req.settings.None? ==> d.settings == Settings(300, 5, false))
  {
    var d := NewDebate(req, t, creator, now);
    assert d.sideA.users == [creator];
    assert NoDuplicates(d.sideB.users) && NoDuplicates(d.sideA.users);
  }

  /** POST / : validate, then store the new debate under a fresh id. */
  method CreateDebate(db: Database, userId: Id, req: CreateDebateRequest, now: Timestamp)
    returns (r: Response<(Id, Debate)>)
    requires db.Valid()
    modifies db
    ensures db.Valid()
    ensures db.users == old(db.users) && db.arguments == old(db.arguments)
    ensures CreateErrors(req) != [] ==> r == Err(400, Validation(CreateErrors(req))) && db.debates == old(db.debates)
    ensures CreateErrors(req) == [] ==>
      && r.Ok? && r.value.0 !in old(db.debates)
      && r.value.1 == NewDebate(req, ParseDebateType(req.debateType.value).value, userId, now)
      && db.debates == old(db.debates)[r.value.0 := r.value.1]
  {
    var errs := CreateErrors(req);
    if errs != [] {
      return Err(400, Validation(errs));
    }
    var t := ParseDebateType(req.debateType.value).value;
    var d := NewDebate(req, t, userId, now);
    NewDebateWellFormed(req, t, userId, now);
    var id := db.AddDebate(d);
    r := Ok((id, d));
  }

  // ---------------------------------------------------------------------------
  // GET / : list with filters

  datatype DebateQuery = DebateQuery(status: Option<string>, userId: Option<Id>)

  /** `status.split(',')` when the `status` parameter is present and non-empty. */
  function StatusFilter(status: Option<string>): Option<seq<string>>
  {
    if Truthy(status) then Some(Split(status.value, ',')) else None
  }

  /** The Mongo query: status among the listed names, and the user on either side. */
  predicate MatchesQuery(d: Debate, q: DebateQuery)
  {
    && (match StatusFilter(q.status)
        case None => true
        case Some(names) => StatusName(d.status) in names)
    && (q.userId.None? || q.userId.value in d.sideA.users || q.userId.value in d.sideB.users)
  }

  /** `Debate.find(query)`: the ids of the stored debates the query selects. Without a
      non-empty status and without a user every debate is listed; a status list keeps
      only debates whose status is named in it; a user keeps only debates that user
      is on; and every debate passing both filters is listed. */
  function ListDebates(debates: map<Id, Debate>, q: DebateQuery): (ids: set<Id>)
    ensures ids <= debates.Keys
    ensures !Truthy(q.status) && q.userId.None? ==> ids == debates.Keys
    ensures forall id :: id in ids && Truthy(q.status) ==>
              StatusName(debates[id].status) in Split(q.status.value, ',')
    ensures forall id :: id in ids && q.userId.Some? ==>
              q.userId.value in debates[id].sideA.users || q.userId.value in debates[id].sideB.users
    ensures forall id :: id in debates
              && (Truthy(q.status) ==> StatusName(debates[id].status) in Split(q.status.value, ','))
              && (q.userId.Some? ==> q.userId.value in debates[id].sideA.users || q.userId.value in debates[id].sideB.users)
              ==> id in ids
  {
    set id | id in debates && MatchesQuery(debates[id], q)
  }

  function StatusNames(ss: seq<Status>): (names: seq<string>)
    ensures |names| == |ss|
    ensures forall k :: 0 <= k < |ss| ==> names[k] == StatusName(ss[k])
  {
    if ss == [] then [] else [StatusName(ss[0])] + StatusNames(ss[1..])
  }

  lemma StatusNamesPlain(ss: seq<Status>)
    ensures forall k :: 0 <= k < |ss| ==> ',' !in StatusNames(ss)[k] && StatusNames(ss)[k] != []
  {
    var names := StatusNames(ss);
    forall k | 0 <= k < |ss| ensures ',' !in names[k] && names[k] != [] {
      StatusNameHasNoComma(ss[k]);
    }
  }

  lemma StatusNameHasNoComma(s: Status)
    ensures ',' !in StatusName(s) && StatusName(s) != []
  {
    var name := StatusName(s);
    assert forall i :: 0 <= i < |name| ==> 'a' <= name[i] <= 'z' by {
      match s
      case Waiting =>
      case Active =>
      case Completed =>
      case Cancelled =>
    }
  }

  /** A status occurs among the names exactly when it occurs in the list. */
  lemma StatusNamesMember(ss: seq<Status>, st: Status)
    ensures StatusName(st) in StatusNames(ss) <==> st in ss
  {
    var names := StatusNames(ss);
    if st in ss {
      var k :| 0 <= k < |ss| && ss[k] == st;
      assert names[k] == StatusName(st);
    }
    if StatusName(st) in names {
      var k :| 0 <= k < |names| && names[k] == StatusName(st);
      assert ParseStatus(StatusName(ss[k])) == Some(ss[k]);
    }
  }

  /** A comma-joined list of status names, as a client sends it, selects exactly the
      debates whose status is in the list. */
  lemma StatusFilterSelects(ss: seq<Status>, d: Debate)
    requires ss != []
    ensures MatchesQuery(d, DebateQuery(Some(Join(StatusNames(ss), ',')), None)) <==> d.status in ss
  {
    var names := StatusNames(ss);
    StatusNamesPlain(ss);
    var joined := Join(names, ',');
    JoinEmpty(names, ',');
    SplitJoin(names, ',');
    assert StatusFilter(Some(joined)) == Some(names);
    StatusNamesMember(ss, d.status);
  }

  // ---------------------------------------------------------------------------
  // GET /:id

  method GetDebate(db: Database, debateId: Id) returns (r: Response<Debate>)
    ensures debateId in db.debates ==> r == Ok(db.debates[debateId])
    ensures debateId !in db.debates ==> r == Err(404, Message(DebateNotFound))
  {
    if debateId !in db.debates {
      return Err(404, Message(DebateNotFound));
    }
    r := Ok(db.debates[debateId]);
  }

  // ---------------------------------------------------------------------------
  // POST /:id/join

  /** The record after `users.push` on the target side and the activation check. */
  function JoinedDebate(d: Debate, userId: Id, toA: bool, now: Timestamp): (j: Debate)
    ensures SideUsers(j, toA) == SideUsers(d, toA) + [userId]
    ensures SideUsers(j, !toA) == SideUsers(d, !toA)
    ensures j.sideA.users != [] && j.sideB.users != [] ==> j.status == Active && j.startedAt == Some(now)
    ensures j.sideA.users == [] || j.sideB.users == [] ==> j.status == d.status && j.startedAt == d.startedAt
    ensures j.topic == d.topic && j.settings == d.settings && j.aiJudgment == d.aiJudgment
    ensures j.createdBy == d.createdBy && j.completedAt == d.completedAt
    ensures j.sideA.score == d.sideA.score && j.sideB.score == d.sideB.score
    ensures j.sideA.position == d.sideA.position && j.sideB.position == d.sideB.position
    ensures j.(sideA := d.sideA, sideB := d.sideB, status := d.status, startedAt := d.startedAt) == d
  {
    var pushed := SideUsers(d, toA) + [userId];
    var d1 := if toA then d.(sideA := d.sideA.(users := pushed)) else d.(sideB := d.sideB.(users := pushed));
    if |d1.sideA.users| > 0 && |d1.sideB.users| > 0 then d1.(status := Active, startedAt := Some(now)) else d1
  }

  /** Joining a waiting debate that the user is not part of keeps the debate well
      formed, and the debate starts exactly when the user joins side B (side A always
      holds the creator). */
  lemma JoinKeepsWellFormed(d: Debate, userId: Id, toA: bool, now: Timestamp)
    requires DebateWellFormed(d) && d.status == Waiting
    requires userId !in d.sideA.users && userId !in d.sideB.users
    ensures var j := JoinedDebate(d, userId, toA, now);
      && DebateWellFormed(j)
      && (j.status == Active <==> !toA)
      && (j.status == Waiting <==> toA)
  {
    var j := JoinedDebate(d, userId, toA, now);
    if toA {
      assert j.sideA.users == d.sideA.users + [userId];
    } else {
      assert j.sideB.users == d.sideB.users + [userId];
    }
  }

  /** POST /:id/join. Any side value other than "A" means side B. */
  method JoinDebate(db: Database, debateId: Id, userId: Id, side: Option<string>, now: Timestamp)
    returns (r: Response<Debate>)
    requires db.Valid()
    modifies db
    ensures db.Valid()
    ensures db.users == old(db.users) && db.arguments == old(db.arguments)
    ensures debateId !in old(db.debates) ==> r == Err(404, Message(DebateNotFound))
    ensures debateId in old(db.debates) ==>
      var d, toA := old(db.debates)[debateId], side == Some("A");
      && (d.status != Waiting ==> r == Err(400, Message(AlreadyStarted)))
      && (d.status == Waiting && userId in SideUsers(d, toA) ==> r == Err(400, Message(AlreadyOnThisSide)))
      && (d.status == Waiting && userId !in SideUsers(d, toA) && userId in SideUsers(d, !toA) ==>
            r == Err(400, Message(AlreadyOnOtherSide)))
      && (r.Ok? <==> d.status == Waiting && userId !in d.sideA.users && userId !in d.sideB.users)
      && (r.Ok? ==> r.value == JoinedDebate(d, userId, toA, now) && db.debates == old(db.debates)[debateId := r.value])
    ensures r.Err? ==> db.debates == old(db.debates)
  {
    if debateId !in db.debates {
      return Err(404, Message(DebateNotFound));
    }
    var d := db.debates[debateId];
    if d.status != Waiting {
      return Err(400, Message(AlreadyStarted));
    }
    var toA := side == Some("A");
    if userId in SideUsers(d, toA) {
      return Err(400, Message(AlreadyOnThisSide));
    }
    if userId in SideUsers(d, !toA) {
      return Err(400, Message(AlreadyOnOtherSide));
    }
    var j := JoinedDebate(d, userId, toA, now);
    JoinKeepsWellFormed(d, userId, toA, now);
    db.ReplaceDebate(debateId, j);
    r := Ok(j);
  }

  // ---------------------------------------------------------------------------
  // POST /:id/judge

  /** The body sent to the AI judge service. */
  datatype JudgeRequest = JudgeRequest(sideA: string, sideB: string, topic: string)

  /** The AI service's answer: the judged fields, or a failed call carrying the
      service's `detail` (if any) and the client's error message. The judge service
      raises no `HTTPException`, so a string `detail` never arrives from it (FastAPI's
      own 422 carries a list); the field keeps the route's `detail ||` branch
      visible. */
  datatype AiReply =
    | Replied(sideAScore: Score, sideBScore: Score, verdict: string, reasoning: string, transactionHash: Option<string>)
    | Failed(detail: Option<string>, message: string)

  function Contents(xs: seq<Argument>): (r: seq<string>)
    ensures |r| == |xs|
    ensures forall k :: 0 <= k < |xs| ==> r[k] == xs[k].content
  {
    if xs == [] then [] else [xs[0].content] + Contents(xs[1..])
  }

  /** One side's text: the debate's arguments sorted by order, that side's contents,
      joined by single spaces. */
  function SideText(args: seq<Argument>, debateId: Id, s: SideLabel): string
  {
    Join(Contents(OnSide(SortByOrder(OfDebate(args, debateId)), s)), ' ')
  }

  /** In a well-formed collection a side's text is its arguments' contents in the
      order they were submitted, and it is empty exactly when the side has no
      arguments. */
  lemma SideTextInSubmissionOrder(args: seq<Argument>, debates: map<Id, Debate>, d: Id, s: SideLabel)
    requires ArgumentsWellFormed(args, debates) && d in debates
    ensures SideText(args, d, s) == Join(Contents(SideArguments(args, d, s)), ' ')
    ensures SideText(args, d, s) == [] <==> SideArguments(args, d, s) == []
  {
    var all := OfDebate(args, d);
    var pile := OnSide(all, s);
    assert pile == SideArguments(args, d, s);
    assert OrdersGapFree(pile);
    SideOfSortedIsStorageOrder(all, SortByOrder(all), s);
    forall k | 0 <= k < |pile| ensures pile[k].content != [] {
      var a := pile[k];
      assert a in all;
      assert a in args;
      var i :| 0 <= i < |args| && args[i] == a;
      assert ArgumentFits(args[i], debates);
    }
    JoinEmpty(Contents(pile), ' ');
  }

  /** `detail || message || 'Failed to judge debate'`. */
  function FailureMessage(detail: Option<string>, message: string): string
  {
    OrElse(detail, if message != "" then message else JudgeFailed)
  }

  /** The record after the judgment is copied in: verdict, reasoning, both scores
      (also on the sides), the transaction hash, and completion. */
  function JudgedDebate(d: Debate, reply: AiReply, now: Timestamp): (j: Debate)
    requires reply.Replied?
    ensures j.status == Completed && j.completedAt == Some(now)
    ensures j.aiJudgment == Some(AiJudgment(reply.verdict, reply.reasoning, reply.sideAScore, reply.sideBScore, reply.transactionHash, now))
    ensures j.sideA == d.sideA.(score := Some(reply.sideAScore)) && j.sideB == d.sideB.(score := Some(reply.sideBScore))
    ensures j.topic == d.topic && j.settings == d.settings && j.createdBy == d.createdBy && j.startedAt == d.startedAt
    ensures j.(aiJudgment := d.aiJudgment, sideA := d.sideA, sideB := d.sideB, status := d.status,
               completedAt := d.completedAt) == d
  {
    d.(aiJudgment := Some(AiJudgment(reply.verdict, reply.reasoning, reply.sideAScore, reply.sideBScore, reply.transactionHash, now)),
       sideA := d.sideA.(score := Some(reply.sideAScore)),
       sideB := d.sideB.(score := Some(reply.sideBScore)),
       status := Completed,
       completedAt := Some(now))
  }

  /** Judging an active debate completes it and keeps it well formed: nobody moves,
      the settings stay, and the scores on the sides match the stored judgment. */
  lemma JudgeKeepsWellFormed(d: Debate, reply: AiReply, now: Timestamp)
    requires DebateWellFormed(d) && d.status == Active && reply.Replied?
    ensures var j := JudgedDebate(d, reply, now);
      && DebateWellFormed(j)
      && j.sideA.users == d.sideA.users && j.sideB.users == d.sideB.users
      && j.sideA.score == Some(j.aiJudgment.value.sideAScore)
      && j.sideB.score == Some(j.aiJudgment.value.sideBScore)
  {
  }

  /** JavaScript's `a > b` on possibly undefined scores: false when either is missing. */
  predicate ScoreAbove(a: Option<Score>, b: Option<Score>)
  {
    a.Some? && b.Some? && a.value > b.value
  }

  /** Side A wins only with a strictly greater score; otherwise side B is credited. */
  function Winners(d: Debate): seq<Id>
  {
    if ScoreAbove(d.sideA.score, d.sideB.score) then d.sideA.users else d.sideB.users
  }

  function Losers(d: Debate): seq<Id>
  {
    if ScoreAbove(d.sideA.score, d.sideB.score) then d.sideB.users else d.sideA.users
  }

  /** A tie is credited to side B: its users win and side A's users lose. */
  lemma TieCreditsSideB(d: Debate)
    requires d.sideA.score.Some? && d.sideA.score == d.sideB.score
    ensures Winners(d) == d.sideB.users && Losers(d) == d.sideA.users
  {
  }

  /** The judge's verdict and the statistics agree on a strict win for either side;
      on equal scores the verdict reads "equally persuasive" while side B is
      credited with the win. */
  lemma VerdictAndStatsAgree(d: Debate, a: Score, b: Score)
    requires d.sideA.score == Some(a) && d.sideB.score == Some(b)
    ensures JudgeService.SelectVerdict(a, b) == JudgeService.SideAMore <==> Winners(d) == d.sideA.users && ScoreAbove(d.sideA.score, d.sideB.score)
    ensures JudgeService.SelectVerdict(a, b) != JudgeService.SideAMore ==> Winners(d) == d.sideB.users
    ensures JudgeService.SelectVerdict(a, b) == JudgeService.Equal ==> Winners(d) == d.sideB.users && Losers(d) == d.sideA.users
  {
  }

  /** `updateUserStats`: one increment per winner, then one per loser. */
  method UpdateUserStats(db: Database, d: Debate)
    requires db.Valid()
    modifies db
    ensures db.Valid()
    ensures db.users == Credit(Credit(old(db.users), Winners(d), true), Losers(d), false)
    ensures db.debates == old(db.debates) && db.arguments == old(db.arguments) && db.nextId == old(db.nextId)
  {
    var winners, losers := Winners(d), Losers(d);
    CreditKeepsValid(db.users, db.debates, db.arguments, db.nextId, winners, true);
    CreditKeepsValid(Credit(db.users, winners, true), db.debates, db.arguments, db.nextId, losers, false);
    for i := 0 to |winners|
      invariant db.users == Credit(old(db.users), winners[..i], true)
      invariant db.debates == old(db.debates) && db.arguments == old(db.arguments) && db.nextId == old(db.nextId)
    {
      assert winners[..i + 1][..i] == winners[..i];
      db.users := CreditOne(db.users, winners[i], true);
    }
    assert winners[..|winners|] == winners;
    ghost var afterWins := db.users;
    for i := 0 to |losers|
      invariant db.users == Credit(afterWins, losers[..i], false)
      invariant db.debates == old(db.debates) && db.arguments == old(db.arguments) && db.nextId == old(db.nextId)
    {
      assert losers[..i + 1][..i] == losers[..i];
      db.users := CreditOne(db.users, losers[i], false);
    }
    assert losers[..|losers|] == losers;
  }

  lemma {:induction false} CountWithoutDuplicates(xs: seq<Id>, u: Id)
    requires NoDuplicates(xs)
    ensures multiset(xs)[u] == if u in xs then 1 else 0
    decreases |xs|
  {
    if xs != [] {
      assert xs == [xs[0]] + xs[1..];
      CountWithoutDuplicates(xs[1..], u);
    }
  }

  /** After judging, each participant of a well-formed debate has played exactly one
      more game: one more win on the winning side, one more loss on the other, and
      total = wins + losses still holds. */
  lemma JudgingCreditsEachPlayerOnce(users: map<Id, User>, d: Debate, u: Id)
    requires DebateWellFormed(d) && u in users
    requires u in d.sideA.users || u in d.sideB.users
    ensures var after := Credit(Credit(users, Winners(d), true), Losers(d), false);
      && u in after
      && after[u].debateStats.total == users[u].debateStats.total + 1
      && (u in Winners(d) ==>
            after[u].debateStats.wins == users[u].debateStats.wins + 1 &&
            after[u].debateStats.losses == users[u].debateStats.losses)
      && (u in Losers(d) ==>
            after[u].debateStats.losses == users[u].debateStats.losses + 1 &&
            after[u].debateStats.wins == users[u].debateStats.wins)
  {
    var mid := Credit(users, Winners(d), true);
    CreditEffect(users, Winners(d), true);
    CreditEffect(mid, Losers(d), false);
    CountWithoutDuplicates(Winners(d), u);
    CountWithoutDuplicates(Losers(d), u);
  }

  /** POST /:id/judge. */
  method JudgeDebate(db: Database, debateId: Id, ai: JudgeRequest -> AiReply, now: Timestamp)
    returns (r: Response<Debate>)
    requires db.Valid()
    modifies db
    ensures db.Valid()
    ensures db.arguments == old(db.arguments)
    ensures debateId !in old(db.debates) ==> r == Err(404, Message(DebateNotFound))
    ensures debateId in old(db.debates) ==>
      var d := old(db.debates)[debateId];
      var textA, textB := SideText(db.arguments, debateId, A), SideText(db.arguments, debateId, B);
      var reply := ai(JudgeRequest(textA, textB, d.topic));
      && (d.status != Active ==> r == Err(400, Message(NotReadyForJudging)))
      && (d.status == Active && AlreadyJudged(d) ==> r == Err(400, Message(AlreadyJudgedMessage)))
      && (d.status == Active && !AlreadyJudged(d) && (textA == [] || textB == []) ==>
            r == Err(400, Message(BothSidesNeedArguments)))
      && (d.status == Active && !AlreadyJudged(d) && textA != [] && textB != [] ==>
            && (reply.Failed? ==> r == Err(500, Message(FailureMessage(reply.detail, reply.message))))
            && (reply.Replied? ==>
                  && r == Ok(JudgedDebate(d, reply, now))
                  && db.debates == old(db.debates)[debateId := r.value]
                  && db.users == Credit(Credit(old(db.users), Winners(r.value), true), Losers(r.value), false)))
    ensures r.Err? ==> db.debates == old(db.debates) && db.users == old(db.users)
  {
    if debateId !in db.debates {
      return Err(404, Message(DebateNotFound));
    }
    var d := db.debates[debateId];
    if d.status != Active {
      return Err(400, Message(NotReadyForJudging));
    }
    if AlreadyJudged(d) {
      return Err(400, Message(AlreadyJudgedMessage));
    }
    var textA := SideText(db.arguments, debateId, A);
    var textB := SideText(db.arguments, debateId, B);
    if textA == [] || textB == [] {
      return Err(400, Message(BothSidesNeedArguments));
    }
    var reply := ai(JudgeRequest(textA, textB, d.topic));
    if reply.Failed? {
      return Err(500, Message(FailureMessage(reply.detail, reply.message)));
    }
    var j := JudgedDebate(d, reply, now);
    JudgeKeepsWellFormed(d, reply, now);
    db.ReplaceDebate(debateId, j);
    UpdateUserStats(db, j);
    r := Ok(j);
  }

  // ---------------------------------------------------------------------------
  // GET /user-stats

  method UserStats(db: Database, userId: Id) returns (r: Response<DebateStats>)
    ensures userId in db.users ==> r == Ok(db.users[userId].debateStats)
    ensures userId !in db.users ==> r == Err(404, Message(UserNotFound))
  {
    if userId !in db.users {
      return Err(404, Message(UserNotFound));
    }
    r := Ok(db.users[userId].debateStats);
  }
}

=== FILE: judge_service.dfy ===
/** The FastAPI judge of ai_service/ai_judge_free.py: the control-character escaper,
    the lazily built classifier, the three-way verdict, the reasoning line and the
    response that survives a failed ledger recording. The classifier itself and the
    random noise are outside the model: their results arrive as parameters. */
module JudgeService {
  import opened Common
  import opened Text

  // ---------------------------------------------------------------------------
  // _escape_control_chars

  /** The characters U+0000 to U+001F matched by `[\x00-\x1f]`. */
  predicate IsControl(c: char)
  {
    c < ' '
  }

  predicate NoControl(s: string)
  {
    forall i :: 0 <= i < |s| ==> !IsControl(s[i])
  }

  /** `"\\u%04x" % ord(c)` for a control character: backslash, `u`, two zeros and
      two lowercase hex digits. */
  function EscapeControl(c: char): (r: string)
    requires IsControl(c)
    ensures |r| == 6 && r[..4] == ['\\', 'u', '0', '0']
    ensures IsHexDigit(r[4]) && IsHexDigit(r[5])
    ensures 16 * HexValue(r[4]) + HexValue(r[5]) == c as int
    ensures NoControl(r)
  {
    var n := c as int;
    ['\\', 'u', '0', '0', HexDigit(n / 16), HexDigit(n % 16)]
  }

  /** One character's replacement: its escape if it is a control character, else itself. */
  function EscapeHead(c: char): string
  {
    if IsControl(c) then EscapeControl(c) else [c]
  }

  /** `_escape_control_chars`: each control character becomes its escape, every
      other character is copied. */
  function Escape(s: string): string
    decreases |s|
  {
    if s == [] then []
    else EscapeHead(s[0]) + Escape(s[1..])
  }

  /** The escaped text holds no control character. */
  lemma {:induction false} EscapeRemovesControl(s: string)
    ensures NoControl(Escape(s))
    decreases |s|
  {
    if s != [] {
      EscapeRemovesControl(s[1..]);
      var head := EscapeHead(s[0]);
      assert Escape(s) == head + Escape(s[1..]);
      forall i | 0 <= i < |Escape(s)| ensures !IsControl(Escape(s)[i]) {
        if i >= |head| {
          assert Escape(s)[i] == Escape(s[1..])[i - |head|];
        }
      }
    }
  }

  function ControlCount(s: string): nat
    decreases |s|
  {
    if s == [] then 0 else (if IsControl(s[0]) then 1 else 0) + ControlCount(s[1..])
  }

  /** Each control character adds five characters. */
  lemma {:induction false} EscapeLength(s: string)
    ensures |Escape(s)| == |s| + 5 * ControlCount(s)
    decreases |s|
  {
    if s != [] {
      EscapeLength(s[1..]);
    }
  }

  /** Text without control characters passes through unchanged, and only such text does. */
  lemma {:induction false} EscapeIdentityIffNoControl(s: string)
    ensures Escape(s) == s <==> NoControl(s)
    decreases |s|
  {
    if s != [] {
      EscapeIdentityIffNoControl(s[1..]);
      if NoControl(s) {
        assert NoControl(s[1..]) by {
          forall i | 0 <= i < |s[1..]| ensures !IsControl(s[1..][i]) {
            assert s[1..][i] == s[i + 1];
          }
        }
      } else if !IsControl(s[0]) {
        var i :| 0 <= i < |s| && IsControl(s[i]);
        assert IsControl(s[1..][i - 1]);
      } else {
        EscapeLength(s);
        assert ControlCount(s) >= 1;
      }
    }
  }

  /** Escaping twice is escaping once. */
  lemma EscapeIdempotent(s: string)
    ensures Escape(Escape(s)) == Escape(s)
  {
    EscapeRemovesControl(s);
    EscapeIdentityIffNoControl(Escape(s));
  }

  /** Escaping works character by character, so it distributes over concatenation. */
  lemma {:induction false} EscapeAppend(s: string, t: string)
    ensures Escape(s + t) == Escape(s) + Escape(t)
    decreases |s|
  {
    if s == [] {
      assert s + t == t;
    } else {
      var head := EscapeHead(s[0]);
      assert (s + t)[0] == s[0];
      assert (s + t)[1..] == s[1..] + t;
      EscapeAppend(s[1..], t);
      calc {
        Escape(s + t);
        head + Escape(s[1..] + t);
        head + (Escape(s[1..]) + Escape(t));
        (head + Escape(s[1..])) + Escape(t);
        Escape(s) + Escape(t);
      }
    }
  }

  // ---------------------------------------------------------------------------
  // load_model

  const DefaultModelName := "valhalla/distilbart-mnli-12-1"

  /** The arguments `pipeline(...)` is called with; the built classifier stands for them. */
  datatype Pipeline = Pipeline(task: string, model: string, device: int, cacheDir: string)

  /** `os.getenv("MODEL_NAME", default)`: the default applies only when the variable is unset. */
  function ModelName(env: Option<string>): (name: string)
    ensures env.Some? ==> name == env.value
    ensures env.None? ==> name == DefaultModelName
  {
    if env.Some? then env.value else DefaultModelName
  }

  function BuildPipeline(name: string): Pipeline
  {
    Pipeline("zero-shot-classification", name, -1, "./model_cache")
  }

  /** The module-level cache `judge_model` and the model name read at import. */
  class ModelCache {
    const modelName: string
    var judgeModel: Option<Pipeline>
    ghost var builds: nat

    /** The cache has been filled at most once, with the configured model. */
    ghost predicate Valid()
      reads this
    {
      && builds <= 1
      && (judgeModel.None? <==> builds == 0)
      && (judgeModel.Some? ==> judgeModel.value == BuildPipeline(modelName))
    }

    constructor (env: Option<string>)
      ensures Valid() && modelName == ModelName(env) && judgeModel.None?
    {
      modelName := ModelName(env);
      judgeModel := None;
      builds := 0;
    }

    /** `load_model`: build on the first call only, and hand out the cached
        classifier from then on. */
    method LoadModel() returns (p: Pipeline)
      requires Valid()
      modifies this
      ensures Valid()
      ensures p == BuildPipeline(modelName) && judgeModel == Some(p)
      ensures builds == 1
      ensures old(judgeModel).Some? ==> p == old(judgeModel).value && builds == old(builds)
    {
      if judgeModel.None? {
        judgeModel := Some(BuildPipeline(modelName));
        builds := builds + 1;
      }
      p := judgeModel.value;
    }
  }

  // ---------------------------------------------------------------------------
  // /judge

  const Criteria := ["logical", "clear", "relevant", "convincing", "emotional appeal"]

  datatype Verdict = SideAMore | SideBMore | Equal

  function VerdictText(v: Verdict): string
  {
    match v
    case SideAMore => "Side A is more persuasive overall."
    case SideBMore => "Side B is more persuasive overall."
    case Equal => "Both sides were equally persuasive."
  }

  /** Distinct verdicts read differently. */
  lemma VerdictTextInjective(v: Verdict, w: Verdict)
    requires VerdictText(v) == VerdictText(w)
    ensures v == w
  {
    assert VerdictText(SideAMore)[5] != VerdictText(SideBMore)[5];
    assert VerdictText(SideAMore)[0] != VerdictText(Equal)[0];
    assert VerdictText(SideBMore)[0] != VerdictText(Equal)[0];
  }

  /** The if/elif/else on the two scores: exactly one verdict, chosen by strict
      comparison. */
  function SelectVerdict(a: real, b: real): (v: Verdict)
    ensures v == SideAMore <==> a > b
    ensures v == SideBMore <==> b > a
    ensures v == Equal <==> a == b
  {
    if a > b then SideAMore else if b > a then SideBMore else Equal
  }

  /** Swapping the sides swaps the verdict. */
  lemma SelectVerdictSwap(a: real, b: real)
    ensures SelectVerdict(b, a) == match SelectVerdict(a, b)
      case SideAMore => SideBMore
      case SideBMore => SideAMore
      case Equal => Equal
  {
  }

  const TraitA := "Side A top trait: "
  const TraitB := " | Side B top trait: "
  const VerdictLabel := " | Verdict: "

  /** The reasoning line built from each side's first label and the verdict. */
  function Reasoning(labelA: string, labelB: string, verdict: string): string
  {
    TraitA + labelA + TraitB + labelB + VerdictLabel + verdict
  }

  /** A field free of `|`, followed by a separator whose second character is the
      first `|`, can be read back: the field and what follows are determined. */
  lemma ReadField(p: string, l: string, q: string, r: string, l': string, r': string)
    requires '|' !in l && '|' !in l'
    requires |q| >= 2 && q[0] != '|' && q[1] == '|'
    requires p + l + q + r == p + l' + q + r'
    ensures l == l' && r == r'
  {
    var x, x', rest, rest' := l + [q[0]], l' + [q[0]], q[2..] + r, q[2..] + r';
    assert q == [q[0]] + [q[1]] + q[2..];
    assert l + q + r == x + ['|'] + rest;
    assert l' + q + r' == x' + ['|'] + rest';
    assert l + q + r == (p + l + q + r)[|p|..];
    assert l' + q + r' == (p + l' + q + r')[|p|..];
    LeadingFieldDetermined(x, rest, x', rest', '|');
    assert l == x[..|l|] && l' == x'[..|l'|];
    assert r == rest[|q| - 2..] && r' == rest'[|q| - 2..];
  }

  /** Labels free of `|` can be read back from the reasoning line: it determines
      both labels and the verdict. */
  lemma ReasoningDetermined(la: string, lb: string, v: string, la': string, lb': string, v': string)
    requires '|' !in la && '|' !in lb && '|' !in la' && '|' !in lb'
    requires Reasoning(la, lb, v) == Reasoning(la', lb', v')
    ensures la == la' && lb == lb' && v == v'
  {
    assert TraitB[0] == ' ' && TraitB[1] == '|' && |TraitB| >= 2;
    assert VerdictLabel[0] == ' ' && VerdictLabel[1] == '|' && |VerdictLabel| >= 2;
    ReadTwoFields(TraitA, TraitB, VerdictLabel, la, lb, v, la', lb', v');
  }

  /** Two `|`-free fields, each followed by a separator starting ` |`, are read back
      from a line with a fixed prefix. */
  lemma ReadTwoFields(p: string, q: string, w: string, la: string, lb: string, v: string,
                      la': string, lb': string, v': string)
    requires '|' !in la && '|' !in lb && '|' !in la' && '|' !in lb'
    requires |q| >= 2 && q[0] != '|' && q[1] == '|'
    requires |w| >= 2 && w[0] != '|' && w[1] == '|'
    requires p + la + q + lb + w + v == p + la' + q + lb' + w + v'
    ensures la == la' && lb == lb' && v == v'
  {
    assert p + la + q + lb + w + v == p + la + q + (lb + w + v);
    assert p + la' + q + lb' + w + v' == p + la' + q + (lb' + w + v');
    ReadField(p, la, q, lb + w + v, la', lb' + w + v');
    assert [] + lb + w + v == lb + w + v;
    assert [] + lb' + w + v' == lb' + w + v';
    ReadField([], lb, w, v, lb', v');
  }

  /** The request body. */
  datatype DebateInput = DebateInput(sideA: string, sideB: string, topic: string)

  /** What the classifier returns for one side: its labels and their confidences,
      best first. */
  datatype Evaluation = Evaluation(labels: seq<string>, scores: seq<real>)

  /** Python's rounding to an integer: the nearest one, a tie going to the even one. */
  function RoundHalfEven(y: real): (k: int)
    ensures -0.5 <= k as real - y <= 0.5
    ensures (k as real - y == 0.5 || y - k as real == 0.5) ==> k % 2 == 0
  {
    var n := y.Floor;
    var frac := y - n as real;
    if frac > 0.5 then n + 1 else if frac < 0.5 then n else if n % 2 == 0 then n else n + 1
  }

  /** `round(x, 2)` on an exact value: the nearest multiple of 1/100, a tie going
      to the even multiple. */
  function Round2(x: real): (r: real)
    ensures (r * 100.0).Floor as real == r * 100.0
    ensures -0.005 <= r - x <= 0.005
    ensures (r - x == 0.005 || x - r == 0.005) ==> (r * 100.0).Floor % 2 == 0
  {
    var k := RoundHalfEven(x * 100.0);
    assert (k as real / 100.0) * 100.0 == k as real;
    k as real / 100.0
  }

  /** `calculate_strict_score` with its default exponent 3: the cube of the top
      confidence, times 100, plus the noise `random.uniform(-2, 2)` drew, rounded
      to two decimals. */
  function StrictScore(top: real, noise: real): (s: real)
    ensures -0.005 <= s - (top * top * top * 100.0 + noise) <= 0.005
  {
    Round2(top * top * top * 100.0 + noise)
  }

  /** A confidence in [0, 1] and noise in [-2, 2] give a score within
      [-2.005, 102.005]. */
  lemma StrictScoreRange(top: real, noise: real)
    requires 0.0 <= top <= 1.0 && -2.0 <= noise <= 2.0
    ensures -2.005 <= StrictScore(top, noise) <= 102.005
  {
    UnitProduct(top, top);
    UnitProduct(top * top, top);
  }

  lemma UnitProduct(x: real, y: real)
    requires 0.0 <= x <= 1.0 && 0.0 <= y <= 1.0
    ensures 0.0 <= x * y <= y
  {
    assert 0.0 <= x * y;
    assert 0.0 <= (1.0 - x) * y;
    assert y - x * y == (1.0 - x) * y;
  }

  /** With the noise fixed, a clearly higher top confidence wins: two sides whose
      labels rank alike are still told apart by their confidences. */
  lemma HigherConfidenceWins(ta: real, tb: real, noise: real)
    requires 0.0 <= tb && tb + 0.1 <= ta <= 1.0
    ensures SelectVerdict(StrictScore(ta, noise), StrictScore(tb, noise)) == SideAMore
  {
    var d := ta - tb;
    assert ta * ta * ta - tb * tb * tb == d * (ta * ta + ta * tb + tb * tb);
    assert ta * ta >= 0.01 by {
      assert ta >= 0.1;
      assert ta * ta >= 0.1 * ta >= 0.01;
    }
    assert ta * ta + ta * tb + tb * tb >= 0.01 by {
      assert ta * tb >= 0.0 && tb * tb >= 0.0;
    }
    assert d * (ta * ta + ta * tb + tb * tb) >= 0.1 * 0.01;
  }

  /** How the call to `store_ai_result` ended: a returned value (a hash or None),
      or an exception escaping the worker thread. */
  datatype RecordOutcome = Returned(hash: Option<string>) | Raised

  datatype JudgeResponse = JudgeResponse(
    topic: string,
    sideAScore: real,
    sideBScore: real,
    verdict: string,
    reasoning: string,
    transactionHash: Option<string>)

  /** The response of `/judge` once both sides are scored and recording has been
      attempted. A failed recording only empties the transaction hash. */
  function AssembleResponse(input: DebateInput, a: real, b: real, labelA: string, labelB: string,
                            outcome: RecordOutcome): (r: JudgeResponse)
    ensures r.topic == input.topic && r.sideAScore == a && r.sideBScore == b
    ensures r.verdict == VerdictText(SelectVerdict(a, b))
    ensures r.reasoning == Reasoning(labelA, labelB, r.verdict)
    ensures outcome.Raised? ==> r.transactionHash.None?
    ensures outcome.Returned? ==> r.transactionHash == outcome.hash
  {
    var verdict := VerdictText(SelectVerdict(a, b));
    var tx := if outcome.Raised? then None else outcome.hash;
    JudgeResponse(input.topic, a, b, verdict, Reasoning(labelA, labelB, verdict), tx)
  }

  /** A recording failure changes nothing but the hash. */
  lemma RecordingFailureKeepsJudgment(input: DebateInput, a: real, b: real, la: string, lb: string, o: RecordOutcome)
    ensures AssembleResponse(input, a, b, la, lb, o) ==
            AssembleResponse(input, a, b, la, lb, Returned(None)).(transactionHash := AssembleResponse(input, a, b, la, lb, o).transactionHash)
  {
  }

  /** POST /judge. `classify` stands for the zero-shot classifier, `noiseA` and
      `noiseB` for the two draws of `random.uniform(-2, 2)`, and `record` for the
      call to `store_ai_result`. An evaluation without scores makes `scores[0]`
      raise, one without labels makes `labels[0]` raise: the request then fails. */
  method Judge(cache: ModelCache, input: DebateInput,
               classify: (Pipeline, string, seq<string>) -> Evaluation,
               noiseA: real, noiseB: real,
               record: (string, real, real, string) -> RecordOutcome)
    returns (r: Option<JudgeResponse>)
    requires cache.Valid()
    requires -2.0 <= noiseA <= 2.0 && -2.0 <= noiseB <= 2.0
    modifies cache
    ensures cache.Valid() && cache.judgeModel.Some?
    ensures var model := cache.judgeModel.value;
      var evalA, evalB := classify(model, input.sideA, Criteria), classify(model, input.sideB, Criteria);
      && (r.Some? <==> evalA.scores != [] && evalB.scores != [] && evalA.labels != [] && evalB.labels != [])
      && (r.Some? ==>
            var a, b := StrictScore(evalA.scores[0], noiseA), StrictScore(evalB.scores[0], noiseB);
            r.value == AssembleResponse(input, a, b, evalA.labels[0], evalB.labels[0],
                                        record(input.topic, a, b, VerdictText(SelectVerdict(a, b)))))
  {
    var model := cache.LoadModel();
    var evalA := classify(model, input.sideA, Criteria);
    var evalB := classify(model, input.sideB, Criteria);
    if evalA.scores == [] || evalB.scores == [] {
      return None;
    }
    var a := StrictScore(evalA.scores[0], noiseA);
    var b := StrictScore(evalB.scores[0], noiseB);
    var verdict := VerdictText(SelectVerdict(a, b));
    if evalA.labels == [] || evalB.labels == [] {
      return None;
    }
    var outcome := record(input.topic, a, b, verdict);
    r := Some(AssembleResponse(input, a, b, evalA.labels[0], evalB.labels[0], outcome));
  }
}

=== FILE: ledger_recorder.dfy ===
/** The ledger recorder of ai_service/blockchain_record.py: the configuration read and
    normalised when the module is imported, and `store_ai_result`, which hashes the
    judgment and sends it to the contract's `storeData`. The Web3 provider, address
    checksumming, JSON parsing, SHA-256, signing and broadcast are outside the
    model: they arrive as functions whose `None` stands for an exception. */
module LedgerRecorder {
  import opened Common
  import opened Text

  // ---------------------------------------------------------------------------
  // Configuration

  /** The variables read with `os.getenv`. */
  datatype Env = Env(
    infuraUrl: Option<string>,
    privateKey: Option<string>,
    publicAddress: Option<string>,
    contractAddress: Option<string>,
    contractAbiJson: Option<string>)

  /** One entry of a contract ABI. */
  datatype AbiParam = AbiParam(internalType: string, name: string, paramType: string)
  datatype AbiEntry = AbiEntry(inputs: seq<AbiParam>, name: string, outputs: seq<AbiParam>,
                               stateMutability: string, entryType: string)

  /** The ABI used when `CONTRACT_ABI_JSON` is not set: `storeData(string data)` alone. */
  const DefaultAbi := [AbiEntry([AbiParam("string", "data", "string")], "storeData", [], "nonpayable", "function")]

  datatype Config = Config(
    infuraUrl: string,
    privateKey: string,
    publicAddress: string,
    contractAddress: string,
    abi: seq<AbiEntry>)

  /** Why importing the module fails. */
  datatype StartupError =
    | MissingInfuraUrl
    | NotConnected
    | MissingPrivateKey
    | MissingPublicAddress
    | InvalidAddress(address: string)
    | MissingContractAddress
    | InvalidAbiJson

  /** The configuration, or the error that stops the import. */
  datatype Startup = Started(config: Config) | Failed(error: StartupError)

  /** `if X: X = X.strip()`: a present, non-empty value loses surrounding whitespace. */
  function StripIfSet(v: Option<string>): (r: Option<string>)
    ensures v.None? ==> r.None?
    ensures v.Some? ==> r.Some? && r.value == Trim(v.value)
  {
    if Truthy(v) then Some(Trim(v.value)) else v
  }

  /** The `0x` prefix is added to a private key that lacks it. */
  function NormalizeKey(k: string): (r: string)
    ensures StartsWith(r, "0x")
    ensures StartsWith(k, "0x") ==> r == k
    ensures !StartsWith(k, "0x") ==> r == "0x" + k
  {
    if StartsWith(k, "0x") then k else "0x" + k
  }

  lemma NormalizeKeyIdempotent(k: string)
    ensures NormalizeKey(NormalizeKey(k)) == NormalizeKey(k)
  {
  }

  /** The ABI: the parsed `CONTRACT_ABI_JSON` when it is set and non-empty, else the default. */
  function ChooseAbi(json: Option<string>, parseAbi: string -> Option<seq<AbiEntry>>): (r: Option<seq<AbiEntry>>)
    ensures !Truthy(json) ==> r == Some(DefaultAbi)
    ensures Truthy(json) ==> r == parseAbi(json.value)
  {
    if Truthy(json) then parseAbi(json.value) else Some(DefaultAbi)
  }

  /** The module's import, step by step: strip the three secrets, then check the
      provider URL, the connection, the key (and prefix it), the public address
      (and checksum it), the contract address (and checksum it), and load the ABI.
      `connected` is the provider's `is_connected()` answer. */
  method LoadConfig(env: Env, connected: string -> bool, checksum: string -> Option<string>,
                    parseAbi: string -> Option<seq<AbiEntry>>)
    returns (r: Startup)
    ensures var key, pub, con := StripIfSet(env.privateKey), StripIfSet(env.publicAddress), StripIfSet(env.contractAddress);
      && (!Truthy(env.infuraUrl) ==> r == Failed(MissingInfuraUrl))
      && (Truthy(env.infuraUrl) && !connected(env.infuraUrl.value) ==> r == Failed(NotConnected))
      && (Truthy(env.infuraUrl) && connected(env.infuraUrl.value) && !Truthy(key) ==> r == Failed(MissingPrivateKey))
      && (Truthy(env.infuraUrl) && connected(env.infuraUrl.value) && Truthy(key) && !Truthy(pub) ==>
            r == Failed(MissingPublicAddress))
      && (Truthy(env.infuraUrl) && connected(env.infuraUrl.value) && Truthy(key) && Truthy(pub) ==>
            && (checksum(pub.value).None? ==> r == Failed(InvalidAddress(pub.value)))
            && (checksum(pub.value).Some? && !Truthy(con) ==> r == Failed(MissingContractAddress))
            && (checksum(pub.value).Some? && Truthy(con) && checksum(con.value).None? ==>
                  r == Failed(InvalidAddress(con.value)))
            && ((checksum(pub.value).Some? && Truthy(con) && checksum(con.value).Some?
                 && ChooseAbi(env.contractAbiJson, parseAbi).None?) ==> r == Failed(InvalidAbiJson)))
      && (r.Started? <==>
            && Truthy(env.infuraUrl) && connected(env.infuraUrl.value)
            && Truthy(key) && Truthy(pub) && checksum(pub.value).Some?
            && Truthy(con) && checksum(con.value).Some?
            && ChooseAbi(env.contractAbiJson, parseAbi).Some?)
      && (r.Started? ==> r.config == Config(env.infuraUrl.value, NormalizeKey(key.value), checksum(pub.value).value,
                                          checksum(con.value).value, ChooseAbi(env.contractAbiJson, parseAbi).value))
  {
    var privateKey := env.privateKey;
    var publicAddress := env.publicAddress;
    var contractAddress := env.contractAddress;
    if Truthy(privateKey) {
      privateKey := Some(Trim(privateKey.value));
    }
    if Truthy(publicAddress) {
      publicAddress := Some(Trim(publicAddress.value));
    }
    if Truthy(contractAddress) {
      contractAddress := Some(Trim(contractAddress.value));
    }
    assert privateKey == StripIfSet(env.privateKey) && publicAddress == StripIfSet(env.publicAddress);
    assert contractAddress == StripIfSet(env.contractAddress);
    if !Truthy(env.infuraUrl) {
      return Failed(MissingInfuraUrl);
    }
    if !connected(env.infuraUrl.value) {
      return Failed(NotConnected);
    }
    if !Truthy(privateKey) {
      return Failed(MissingPrivateKey);
    }
    var key := privateKey.value;
    if !StartsWith(key, "0x") {
      key := "0x" + key;
    }
    assert key == NormalizeKey(privateKey.value);
    if !Truthy(publicAddress) {
      return Failed(MissingPublicAddress);
    }
    var pub := checksum(publicAddress.value);
    if pub.None? {
      return Failed(InvalidAddress(publicAddress.value));
    }
    if !Truthy(contractAddress) {
      return Failed(MissingContractAddress);
    }
    var con := checksum(contractAddress.value);
    if con.None? {
      return Failed(InvalidAddress(contractAddress.value));
    }
    var abi := ChooseAbi(env.contractAbiJson, parseAbi);
    if abi.None? {
      return Failed(InvalidAbiJson);
    }
    r := Started(Config(env.infuraUrl.value, key, pub.value, con.value, abi.value));
  }

  /** A key made only of whitespace is stripped to nothing and reported missing. */
  lemma BlankKeyIsMissing(env: Env, connected: string -> bool)
    requires Truthy(env.infuraUrl) && connected(env.infuraUrl.value)
    requires env.privateKey.Some? && AllSpace(env.privateKey.value)
    ensures !Truthy(StripIfSet(env.privateKey))
  {
    TrimEmptyIffAllSpace(env.privateKey.value);
  }

  // ---------------------------------------------------------------------------
  // store_ai_result

  const Separator := '|'

  /** `f"{topic}|{side_a_score}|{side_b_score}|{verdict}"`, with the scores already
      formatted as Python prints them. */
  function Payload(topic: string, a: string, b: string, verdict: string): string
  {
    topic + [Separator] + a + [Separator] + b + [Separator] + verdict
  }

  /** With scores and verdict free of `|`, the payload determines all four fields,
      whatever the topic contains: distinct judgments give distinct payloads. */
  lemma PayloadDetermined(topic: string, a: string, b: string, v: string,
                          topic': string, a': string, b': string, v': string)
    requires Separator !in a && Separator !in b && Separator !in v
    requires Separator !in a' && Separator !in b' && Separator !in v'
    requires Payload(topic, a, b, v) == Payload(topic', a', b', v')
    ensures topic == topic' && a == a' && b == b' && v == v'
  {
    var c := Separator;
    TrailingFieldDetermined(topic + [c] + a + [c] + b, v, topic' + [c] + a' + [c] + b', v', c);
    TrailingFieldDetermined(topic + [c] + a, b, topic' + [c] + a', b', c);
    TrailingFieldDetermined(topic, a, topic', a', c);
  }

  const Gwei := 1_000_000_000
  const Gas := 200000

  /** `w3.to_wei(n, "gwei")`. */
  function GweiToWei(n: nat): nat
  {
    n * Gwei
  }

  /** The fields passed to `build_transaction`. */
  datatype TxFields = TxFields(from: string, nonce: nat, gas: nat, gasPrice: nat)

  function TransactionFields(config: Config, nonce: nat): (f: TxFields)
    ensures f.from == config.publicAddress && f.nonce == nonce
    ensures f.gas == 200000 && f.gasPrice == 10_000_000_000
  {
    TxFields(config.publicAddress, nonce, Gas, GweiToWei(10))
  }

  /** A byte of the transaction hash. */
  newtype Byte = x: int | 0 <= x < 256

  function HexPairs(bytes: seq<Byte>): (r: string)
    ensures |r| == 2 * |bytes|
    ensures forall k :: 0 <= k < |r| ==> IsHexDigit(r[k])
  {
    if bytes == [] then []
    else [HexDigit(bytes[0] as int / 16), HexDigit(bytes[0] as int % 16)] + HexPairs(bytes[1..])
  }

  /** `w3.to_hex`: `0x` followed by two lowercase hex digits per byte. */
  function ToHex(bytes: seq<Byte>): (r: string)
    ensures StartsWith(r, "0x") && |r| == 2 + 2 * |bytes|
  {
    "0x" + HexPairs(bytes)
  }

  /** Reads hex digit pairs back into bytes. */
  function FromHexPairs(s: string): seq<Byte>
    decreases |s|
  {
    if |s| < 2 then []
    else [(16 * HexValue(s[0]) + HexValue(s[1])) as Byte] + FromHexPairs(s[2..])
  }

  /** The hash text reads back as the bytes it was made from. */
  lemma {:induction false} HexRoundTrip(bytes: seq<Byte>)
    ensures FromHexPairs(HexPairs(bytes)) == bytes
    decreases |bytes|
  {
    if bytes != [] {
      var n := bytes[0] as int;
      var s, rest := HexPairs(bytes), HexPairs(bytes[1..]);
      assert s == [HexDigit(n / 16), HexDigit(n % 16)] + rest;
      assert s[2..] == rest;
      HexRoundTrip(bytes[1..]);
      assert FromHexPairs(s) == [n as Byte] + bytes[1..];
    }
  }

  /** A transaction built for `storeData`, and its signed form. */
  datatype Tx = Tx(data: string, fields: TxFields)
  datatype SignedTx = SignedTx(raw: seq<Byte>)

  /** The ledger as the recorder sees it: each call either answers or raises (`None`). */
  datatype Chain = Chain(
    balance: string -> Option<nat>,
    transactionCount: string -> Option<nat>,
    build: (string, TxFields) -> Option<Tx>,
    sign: (Tx, string) -> Option<SignedTx>,
    send: seq<Byte> -> Option<seq<Byte>>)

  /** The outside calls made, in order, for the trace of one recording. */
  datatype Call =
    | GetBalance(address: string)
    | GetTransactionCount(address: string)
    | Build(data: string, fields: TxFields)
    | Sign(tx: Tx, key: string)
    | Send(raw: seq<Byte>)

  datatype Recording = Recording(txHash: Option<string>, calls: seq<Call>)

  /** `store_ai_result`: hash the payload, read the balance and the nonce, build,
      sign and send the `storeData` transaction, and return the sent hash in hex.
      Any step that raises ends the attempt with `None`; nothing escapes. */
  function StoreAiResult(config: Config, chain: Chain, sha256: string -> string,
                         topic: string, a: string, b: string, verdict: string): (r: Recording)
    ensures r.txHash.Some? ==> StartsWith(r.txHash.value, "0x")
    ensures r.calls != [] && r.calls[0] == GetBalance(config.publicAddress)
    ensures forall k :: 0 <= k < |r.calls| && r.calls[k].Build? ==>
      r.calls[k].data == sha256(Payload(topic, a, b, verdict)) &&
      chain.transactionCount(config.publicAddress).Some? &&
      r.calls[k].fields.nonce == chain.transactionCount(config.publicAddress).value &&
      r.calls[k].fields == TransactionFields(config, r.calls[k].fields.nonce)
    ensures forall k :: 0 <= k < |r.calls| && r.calls[k].Sign? ==> r.calls[k].key == config.privateKey
    ensures r.txHash.Some? <==> |r.calls| == 5 && r.calls[4].Send? && chain.send(r.calls[4].raw).Some?
    ensures r.txHash.Some? ==> r.txHash.value == ToHex(chain.send(r.calls[4].raw).value)
  {
    var hashed := sha256(Payload(topic, a, b, verdict));
    var trace0 := [GetBalance(config.publicAddress)];
    if chain.balance(config.publicAddress).None? then Recording(None, trace0)
    else
      var trace1 := trace0 + [GetTransactionCount(config.publicAddress)];
      var nonce := chain.transactionCount(config.publicAddress);
      if nonce.None? then Recording(None, trace1)
      else
        var fields := TransactionFields(config, nonce.value);
        var trace2 := trace1 + [Build(hashed, fields)];
        var tx := chain.build(hashed, fields);
        if tx.None? then Recording(None, trace2)
        else
          var trace3 := trace2 + [Sign(tx.value, config.privateKey)];
          var signed := chain.sign(tx.value, config.privateKey);
          if signed.None? then Recording(None, trace3)
          else
            var trace4 := trace3 + [Send(signed.value.raw)];
            var sent := chain.send(signed.value.raw);
            if sent.None? then Recording(None, trace4)
            else Recording(Some(ToHex(sent.value)), trace4)
  }

  /** A recording returns a hash exactly when every outside call answered. */
  lemma RecordingSucceedsIffAllCallsAnswer(config: Config, chain: Chain, sha256: string -> string,
                                           topic: string, a: string, b: string, verdict: string)
    ensures var r := StoreAiResult(config, chain, sha256, topic, a, b, verdict);
      var hashed := sha256(Payload(topic, a, b, verdict));
      var nonce := chain.transactionCount(config.publicAddress);
      r.txHash.Some? <==>
        && chain.balance(config.publicAddress).Some?
        && nonce.Some?
        && chain.build(hashed, TransactionFields(config, nonce.value)).Some?
        && chain.sign(chain.build(hashed, TransactionFields(config, nonce.value)).value, config.privateKey).Some?
        && chain.send(chain.sign(chain.build(hashed, TransactionFields(config, nonce.value)).value, config.privateKey).value.raw).Some?
  {
  }
}

=== FILE: session_store.dfy ===
/** The client session helpers of frontend/src/lib/auth.ts: the token and the user
    kept in the browser's localStorage, and the expiry check on the token. JSON
    encoding and JWT decoding are libraries and arrive as functions. */
module SessionStore {
  import opened Common

  const TokenKey := "token"
  const UserKey := "user"

  datatype ClientStats = ClientStats(total: int, wins: int, losses: int, avgScore: real)

  /** The `User` interface the client stores. */
  datatype ClientUser = ClientUser(id: string, username: string, email: string, debateStats: ClientStats)

  /** What `getUser` ends with: null, a parsed user, or an exception from `JSON.parse`. */
  datatype UserRead = NoUser | Parsed(user: ClientUser) | ParseThrows

  /** The payload `jwtDecode` yields; `exp` is in seconds since the epoch. */
  datatype Claims = Claims(exp: Option<int>)

  /** `getToken` on a storage snapshot: null without a window, else the stored item. */
  function TokenIn(hasWindow: bool, items: map<string, string>): (r: Option<string>)
    ensures !hasWindow ==> r.None?
    ensures hasWindow ==> (r.Some? <==> TokenKey in items) && (r.Some? ==> r.value == items[TokenKey])
  {
    if !hasWindow then None
    else if TokenKey in items then Some(items[TokenKey]) else None
  }

  /** `getUser` on a storage snapshot: null without a window or without a non-empty
      item, else whatever `JSON.parse` makes of it. */
  function UserIn(hasWindow: bool, items: map<string, string>, parse: string -> Option<ClientUser>): (r: UserRead)
    ensures !hasWindow ==> r == NoUser
    ensures hasWindow && (UserKey !in items || items[UserKey] == "") ==> r == NoUser
    ensures hasWindow && UserKey in items && items[UserKey] != "" ==>
      (parse(items[UserKey]).Some? ==> r == Parsed(parse(items[UserKey]).value)) &&
      (parse(items[UserKey]).None? ==> r == ParseThrows)
  {
    if !hasWindow then NoUser
    else if UserKey !in items || items[UserKey] == "" then NoUser
    else match parse(items[UserKey])
      case Some(u) => Parsed(u)
      case None => ParseThrows
  }

  /** `isTokenValid`: the decoded expiry, in milliseconds, is after `now`; a token
      that does not decode, or carries no expiry (`undefined * 1000` is NaN), is
      not valid. */
  function IsTokenValid(token: string, now: int, decode: string -> Option<Claims>): (valid: bool)
    ensures valid <==> decode(token).Some? && decode(token).value.exp.Some? && decode(token).value.exp.value * 1000 > now
  {
    match decode(token)
    case None => false
    case Some(claims) => claims.exp.Some? && claims.exp.value * 1000 > now
  }

  /** A token valid now was valid at every earlier time. */
  lemma ValidityIsMonotone(token: string, now: int, earlier: int, decode: string -> Option<Claims>)
    requires earlier <= now && IsTokenValid(token, now, decode)
    ensures IsTokenValid(token, earlier, decode)
  {
  }

  /** The browser's localStorage, and whether a window exists at all (it does not
      during server rendering). */
  class Browser {
    const hasWindow: bool
    var items: map<string, string>

    constructor (hasWindow: bool, items: map<string, string>)
      ensures this.hasWindow == hasWindow && this.items == items
    {
      this.hasWindow := hasWindow;
      this.items := items;
    }

    function GetToken(): Option<string>
      reads this
    {
      TokenIn(hasWindow, items)
    }

    function GetUser(parse: string -> Option<ClientUser>): UserRead
      reads this
    {
      UserIn(hasWindow, items, parse)
    }

    /** `isAuthenticated`: a missing or empty token is not authenticated; any other
        token is as valid as `isTokenValid` says. */
    function IsAuthenticated(now: int, decode: string -> Option<Claims>): (r: bool)
      reads this
      ensures !Truthy(GetToken()) ==> !r
      ensures Truthy(GetToken()) ==> r == IsTokenValid(GetToken().value, now, decode)
    {
      var token := GetToken();
      if Truthy(token) then IsTokenValid(token.value, now, decode) else false
    }

    /** `setToken`; localStorage exists only in the browser. */
    method SetToken(token: string)
      requires hasWindow
      modifies this
      ensures items == old(items)[TokenKey := token]
      ensures GetToken() == Some(token)
    {
      items := items[TokenKey := token];
    }

    /** `setUser` stores the user's JSON text. */
    method SetUser(user: ClientUser, stringify: ClientUser -> string)
      requires hasWindow
      modifies this
      ensures items == old(items)[UserKey := stringify(user)]
      ensures forall parse: string -> Option<ClientUser> ::
        stringify(user) != "" && parse(stringify(user)) == Some(user) ==> GetUser(parse) == Parsed(user)
    {
      items := items[UserKey := stringify(user)];
    }

    /** `removeToken` removes the token and the user and nothing else. */
    method RemoveToken()
      requires hasWindow
      modifies this
      ensures items == old(items) - {TokenKey, UserKey}
      ensures GetToken().None? && GetUser(parse => None) == NoUser
      ensures forall k :: k in old(items) && k != TokenKey && k != UserKey ==> k in items && items[k] == old(items)[k]
    {
      items := items - {TokenKey, UserKey};
    }
  }
}

=== FILE: socket_rooms.dfy ===
/** The room registry of backend/src/utils/socketHandler.js: a map from debate id
    to the set of socket ids watching it, updated by `join-debate`, `leave-debate`
    and `disconnect`, plus the `new-argument` check that announces a debate ready
    for judging. The socket.io deliveries are returned as values. */
module SocketRooms {
  import opened Common
  import opened DebateModel
  import opened ArgumentModel
  import opened Store

  type SocketId = string

  /** The registry's contents: the rooms, and the keys in the order the Map
      remembers them (insertion order, which `forEach` follows). */
  datatype RoomTable = RoomTable(rooms: map<Id, set<SocketId>>, order: seq<Id>)

  predicate Distinct(xs: seq<Id>)
  {
    forall i, j :: 0 <= i < j < |xs| ==> xs[i] != xs[j]
  }

  /** No stored room is empty, and `order` lists each stored key once. */
  ghost predicate TableValid(t: RoomTable)
  {
    && (forall r :: r in t.rooms ==> t.rooms[r] != {})
    && Distinct(t.order)
    && (forall r :: r in t.rooms <==> r in t.order)
  }

  lemma DistinctSnoc(xs: seq<Id>, x: Id)
    requires Distinct(xs) && x !in xs
    ensures Distinct(xs + [x])
  {
    var ys := xs + [x];
    forall i, j | 0 <= i < j < |ys| ensures ys[i] != ys[j] {
      if j == |xs| {
        assert ys[i] in xs;
      }
    }
  }

  /** `order` without `r`. */
  function Without(xs: seq<Id>, r: Id): (ys: seq<Id>)
    ensures forall x :: x in ys <==> x in xs && x != r
    decreases |xs|
  {
    if xs == [] then []
    else
      var init := Without(xs[..|xs| - 1], r);
      var last := xs[|xs| - 1];
      assert forall x :: x in xs <==> x in xs[..|xs| - 1] || x == last;
      if last == r then init else init + [last]
  }

  lemma {:induction false} WithoutDistinct(xs: seq<Id>, r: Id)
    requires Distinct(xs)
    ensures Distinct(Without(xs, r))
    decreases |xs|
  {
    if xs != [] {
      var init, last := xs[..|xs| - 1], xs[|xs| - 1];
      WithoutDistinct(init, r);
      if last != r {
        assert last !in init;
        DistinctSnoc(Without(init, r), last);
      }
    }
  }

  /** `join-debate`: create the room if it is new, then add the socket. */
  function Joined(t: RoomTable, r: Id, s: SocketId): RoomTable
  {
    var members := if r in t.rooms then t.rooms[r] else {};
    RoomTable(t.rooms[r := members + {s}], if r in t.rooms then t.order else t.order + [r])
  }

  /** `leave-debate` on a known room: drop the socket, then the room if it emptied. */
  function Left(t: RoomTable, r: Id, s: SocketId): RoomTable
    requires r in t.rooms
  {
    var rest := t.rooms[r] - {s};
    if rest == {} then RoomTable(t.rooms - {r}, Without(t.order, r))
    else RoomTable(t.rooms[r := rest], t.order)
  }

  lemma JoinedKeepsValid(t: RoomTable, r: Id, s: SocketId)
    requires TableValid(t)
    ensures TableValid(Joined(t, r, s))
    ensures s in Joined(t, r, s).rooms[r]
  {
    if r !in t.rooms {
      DistinctSnoc(t.order, r);
    }
  }

  /** A socket joining a room it is already in changes nothing. */
  lemma JoinTwiceSameAsOnce(t: RoomTable, r: Id, s: SocketId)
    ensures Joined(Joined(t, r, s), r, s) == Joined(t, r, s)
  {
  }

  lemma LeftKeepsValid(t: RoomTable, r: Id, s: SocketId)
    requires TableValid(t) && r in t.rooms
    ensures TableValid(Left(t, r, s))
    ensures r in Left(t, r, s).rooms ==> s !in Left(t, r, s).rooms[r]
  {
    WithoutDistinct(t.order, r);
  }

  /** One room of the `disconnect` loop: a room holding the socket loses it, and
      is deleted if that empties it; any other room is left alone. */
  function DisconnectStep(t: RoomTable, r: Id, s: SocketId): RoomTable
  {
    if r in t.rooms && s in t.rooms[r] then Left(t, r, s) else t
  }

  /** The `disconnect` loop over the rooms listed in `rs`, in that order. */
  function DisconnectFrom(t: RoomTable, rs: seq<Id>, s: SocketId): RoomTable
    decreases |rs|
  {
    if rs == [] then t
    else DisconnectStep(DisconnectFrom(t, rs[..|rs| - 1], s), rs[|rs| - 1], s)
  }

  /** The `participant-left` counts the loop emits, one per room that held the socket. */
  function DisconnectEvents(t: RoomTable, rs: seq<Id>, s: SocketId): seq<(Id, nat)>
    decreases |rs|
  {
    if rs == [] then []
    else
      var before := DisconnectFrom(t, rs[..|rs| - 1], s);
      var r := rs[|rs| - 1];
      DisconnectEvents(t, rs[..|rs| - 1], s) +
      (if r in before.rooms && s in before.rooms[r] then [(r, |before.rooms[r] - {s}|)] else [])
  }

  /** Visiting one more room extends the table and the counts by that room's visit. */
  lemma DisconnectSnoc(t: RoomTable, rs: seq<Id>, r: Id, s: SocketId)
    ensures var u := DisconnectFrom(t, rs, s);
      && DisconnectFrom(t, rs + [r], s) == DisconnectStep(u, r, s)
      && DisconnectEvents(t, rs + [r], s) ==
           DisconnectEvents(t, rs, s) + (if r in u.rooms && s in u.rooms[r] then [(r, |u.rooms[r] - {s}|)] else [])
  {
    assert (rs + [r])[..|rs|] == rs;
  }

  /** After the loop has visited the distinct rooms `rs`: each visited room lost the
      socket and was deleted if it emptied, the unvisited rooms are as they were,
      and the table stays valid. */
  lemma {:induction false} DisconnectFromEffect(t: RoomTable, rs: seq<Id>, s: SocketId)
    requires TableValid(t) && Distinct(rs)
    ensures var u := DisconnectFrom(t, rs, s);
      && TableValid(u)
      && (forall r :: r in u.rooms <==> r in t.rooms && (r !in rs || t.rooms[r] - {s} != {}))
      && (forall r :: r in u.rooms ==> u.rooms[r] == if r in rs then t.rooms[r] - {s} else t.rooms[r])
    decreases |rs|
  {
    if rs != [] {
      var init, r := rs[..|rs| - 1], rs[|rs| - 1];
      assert forall x :: x in rs <==> x in init || x == r;
      assert r !in init;
      DisconnectFromEffect(t, init, s);
      var u := DisconnectFrom(t, init, s);
      if r in u.rooms && s in u.rooms[r] {
        LeftKeepsValid(u, r, s);
      }
    }
  }

  /** The counts `disconnect` should report, read off the table before it: for each
      listed room holding the socket, in list order, the room and its size less one. */
  function HolderCounts(t: RoomTable, rs: seq<Id>, s: SocketId): seq<(Id, nat)>
    decreases |rs|
  {
    if rs == [] then []
    else
      var r := rs[|rs| - 1];
      HolderCounts(t, rs[..|rs| - 1], s) +
      (if r in t.rooms && s in t.rooms[r] then [(r, RemainingSize(t.rooms[r], s))] else [])
  }

  /** The size of a set holding `s`, less one. */
  function RemainingSize(m: set<SocketId>, s: SocketId): (n: nat)
    requires s in m
    ensures n == |m - {s}| && n + 1 == |m|
  {
    assert m == (m - {s}) + {s};
    |m| - 1
  }

  /** Over distinct rooms the loop reports, for each room holding the socket, its
      size before the disconnect less one: visiting other rooms first never changes
      a room still to be visited. */
  lemma {:induction false} DisconnectEventsCount(t: RoomTable, rs: seq<Id>, s: SocketId)
    requires TableValid(t) && Distinct(rs)
    ensures DisconnectEvents(t, rs, s) == HolderCounts(t, rs, s)
    decreases |rs|
  {
    if rs != [] {
      var init, r := rs[..|rs| - 1], rs[|rs| - 1];
      assert r !in init;
      DisconnectEventsCount(t, init, s);
      DisconnectFromEffect(t, init, s);
      var u := DisconnectFrom(t, init, s);
      if r in t.rooms && s in t.rooms[r] {
        assert r in u.rooms && u.rooms[r] == t.rooms[r];
        assert |u.rooms[r] - {s}| == RemainingSize(t.rooms[r], s);
      }
    }
  }

  /** `disconnect` visits every room: afterwards the socket is in no room, every
      room that held only it is gone, and every other room keeps its other members. */
  lemma DisconnectLeavesNoTrace(t: RoomTable, s: SocketId)
    requires TableValid(t)
    ensures var u := DisconnectFrom(t, t.order, s);
      && TableValid(u)
      && (forall r :: r in u.rooms ==> r in t.rooms && s !in u.rooms[r] && u.rooms[r] == t.rooms[r] - {s})
      && (forall r :: r in t.rooms ==> (r in u.rooms <==> t.rooms[r] != {s}))
  {
    DisconnectFromEffect(t, t.order, s);
    forall r | r in t.rooms ensures t.rooms[r] - {s} == {} <==> t.rooms[r] == {s} {
      if t.rooms[r] - {s} == {} {
        assert t.rooms[r] <= {s};
      }
    }
  }

  /** The registry object `debateRooms`. */
  class RoomRegistry {
    var rooms: map<Id, set<SocketId>>
    var order: seq<Id>

    function Table(): RoomTable
      reads this
    {
      RoomTable(rooms, order)
    }

    ghost predicate Valid()
      reads this
    {
      TableValid(Table())
    }

    constructor ()
      ensures Valid() && rooms == map[] && order == []
    {
      rooms, order := map[], [];
    }

    /** `join-debate`; the count is the room's size that `participant-joined` reports. */
    method Join(r: Id, s: SocketId) returns (participants: nat)
      requires Valid()
      modifies this
      ensures Valid()
      ensures Table() == Joined(old(Table()), r, s)
      ensures participants == |rooms[r]| && s in rooms[r]
    {
      JoinedKeepsValid(Table(), r, s);
      if r !in rooms {
        rooms := rooms[r := {}];
        order := order + [r];
      }
      rooms := rooms[r := rooms[r] + {s}];
      participants := |rooms[r]|;
    }

    /** `leave-debate`; returns the size reported by `participant-left`, or None for a
        room the registry does not hold (nothing is emitted then). */
    method Leave(r: Id, s: SocketId) returns (participants: Option<nat>)
      requires Valid()
      modifies this
      ensures Valid()
      ensures r !in old(rooms) ==> participants.None? && Table() == old(Table())
      ensures r in old(rooms) ==>
        && Table() == Left(old(Table()), r, s)
        && participants == Some(|old(rooms)[r] - {s}|)
      ensures r in rooms ==> s !in rooms[r]
    {
      if r !in rooms {
        return None;
      }
      LeftKeepsValid(Table(), r, s);
      var rest := rooms[r] - {s};
      participants := Some(|rest|);
      if rest == {} {
        rooms := rooms - {r};
        order := Without(order, r);
      } else {
        rooms := rooms[r := rest];
      }
    }

    /** One visit of the `disconnect` loop: a room holding the socket loses it, is
        deleted if it emptied, and its remaining size is reported. */
    method Visit(r: Id, s: SocketId) returns (left: seq<(Id, nat)>)
      modifies this
      ensures Table() == DisconnectStep(old(Table()), r, s)
      ensures left == if r in old(rooms) && s in old(rooms)[r] then [(r, |old(rooms)[r] - {s}|)] else []
    {
      left := [];
      if r in rooms && s in rooms[r] {
        var rest := rooms[r] - {s};
        left := [(r, |rest|)];
        if rest == {} {
          rooms := rooms - {r};
          order := Without(order, r);
        } else {
          rooms := rooms[r := rest];
        }
      }
    }

    /** `disconnect`: visit the rooms in insertion order and take the socket out of
        each one holding it. Each visit deletes at most the room being visited, so
        walking a snapshot of the keys visits the same rooms as the Map's `forEach`. */
    method Disconnect(s: SocketId) returns (events: seq<(Id, nat)>)
      requires Valid()
      modifies this
      ensures Valid()
      ensures Table() == DisconnectFrom(old(Table()), old(order), s)
      ensures events == DisconnectEvents(old(Table()), old(order), s)
      ensures events == HolderCounts(old(Table()), old(order), s)
      ensures forall r :: r in rooms ==> r in old(rooms) && s !in rooms[r] && rooms[r] == old(rooms)[r] - {s}
      ensures forall r :: r in old(rooms) ==> (r in rooms <==> old(rooms)[r] != {s})
    {
      var snapshot := order;
      ghost var start := Table();
      events := [];
      for i := 0 to |snapshot|
        invariant Table() == DisconnectFrom(start, snapshot[..i], s)
        invariant events == DisconnectEvents(start, snapshot[..i], s)
      {
        assert snapshot[..i + 1] == snapshot[..i] + [snapshot[i]];
        DisconnectSnoc(start, snapshot[..i], snapshot[i], s);
        var left := Visit(snapshot[i], s);
        events := events + left;
      }
      assert snapshot[..|snapshot|] == snapshot;
      DisconnectLeavesNoTrace(start, s);
      DisconnectEventsCount(start, snapshot, s);
    }
  }

  // ---------------------------------------------------------------------------
  // new-argument

  datatype RoomEvent =
    | ArgumentAdded(room: Id, argument: Option<Argument>)
    | ReadyForJudging(room: Id)
    | Error

  function FindArgument(xs: seq<Argument>, id: Id): (r: Option<Argument>)
    ensures r.Some? ==> r.value in xs && r.value.id == id
    ensures r.None? ==> forall k :: 0 <= k < |xs| ==> xs[k].id != id
  {
    if xs == [] then None
    else if xs[0].id == id then Some(xs[0])
    else FindArgument(xs[1..], id)
  }

  /** Both sides' counts have reached the debate's argument limit. */
  predicate BothSidesAtLimit(xs: seq<Argument>, d: Debate, id: Id)
  {
    && |SideArguments(xs, id, A)| >= d.settings.argumentLimit
    && |SideArguments(xs, id, B)| >= d.settings.argumentLimit
  }

  /** `new-argument`: broadcast the stored argument (null when unknown), then
      announce readiness when both sides are at the limit; an unknown debate makes
      the limit lookup throw, which is reported as an error. */
  method NewArgument(db: Database, debateId: Id, argumentId: Id) returns (events: seq<RoomEvent>)
    ensures debateId !in db.debates ==> events == [ArgumentAdded(debateId, FindArgument(db.arguments, argumentId)), Error]
    ensures debateId in db.debates ==>
      && |events| >= 1 && events[0] == ArgumentAdded(debateId, FindArgument(db.arguments, argumentId))
      && (ReadyForJudging(debateId) in events <==> BothSidesAtLimit(db.arguments, db.debates[debateId], debateId))
      && Error !in events
  {
    events := [ArgumentAdded(debateId, FindArgument(db.arguments, argumentId))];
    if debateId !in db.debates {
      return events + [Error];
    }
    var d := db.debates[debateId];
    if BothSidesAtLimit(db.arguments, d, debateId) {
      events := events + [ReadyForJudging(debateId)];
    }
  }

  /** In a well-formed store the announcement means both sides hold exactly the
      limit; with a limit of zero or less it is made with no arguments at all. */
  lemma ReadyMeansFull(xs: seq<Argument>, debates: map<Id, Debate>, id: Id)
    requires ArgumentsWellFormed(xs, debates) && id in debates
    ensures debates[id].settings.argumentLimit <= 0 ==> BothSidesAtLimit(xs, debates[id], id)
    ensures debates[id].settings.argumentLimit >= 1 ==>
      (BothSidesAtLimit(xs, debates[id], id) <==>
        && |SideArguments(xs, id, A)| == debates[id].settings.argumentLimit
        && |SideArguments(xs, id, B)| == debates[id].settings.argumentLimit)
  {
    PileWithinLimit(xs, debates, id, A);
    PileWithinLimit(xs, debates, id, B);
  }
}

=== FILE: store.dfy ===
/** The three Mongo collections the Express handlers share (users, debates,
    arguments), the invariant every handler keeps, and the queries the handlers
    run against the argument collection. */
module Store {
  import opened Common
  import opened Text
  import opened DebateModel
  import opened ArgumentModel

  // ---------------------------------------------------------------------------
  // Users

  datatype DebateStats = DebateStats(total: nat, wins: nat, losses: nat)

  const ZeroStats := DebateStats(0, 0, 0)

  /** A user document as the auth routes read and write it. `password` is the
      stored password, produced by the user model's hashing hook. */
  datatype User = User(username: string, email: string, password: string, debateStats: DebateStats)

  /** No two users share an email, and no two share a username. */
  ghost predicate UsersUnique(users: map<Id, User>)
  {
    forall i, j :: i in users && j in users && i != j ==>
      users[i].email != users[j].email && users[i].username != users[j].username
  }

  /** Every user's total equals wins plus losses. */
  ghost predicate StatsBalanced(users: map<Id, User>)
  {
    forall i :: i in users ==>
      users[i].debateStats.total == users[i].debateStats.wins + users[i].debateStats.losses
  }

  predicate EmailTaken(users: map<Id, User>, email: string)
  {
    exists i :: i in users && users[i].email == email
  }

  predicate UsernameTaken(users: map<Id, User>, username: string)
  {
    exists i :: i in users && users[i].username == username
  }

  /** One `$inc` of `findByIdAndUpdate`: total plus one, and wins or losses plus one.
      An id with no user document is ignored, as Mongo ignores it. */
  function CreditOne(users: map<Id, User>, id: Id, won: bool): map<Id, User>
  {
    if id !in users then users
    else
      var s := users[id].debateStats;
      var s' := if won then s.(total := s.total + 1, wins := s.wins + 1)
                else s.(total := s.total + 1, losses := s.losses + 1);
      users[id := users[id].(debateStats := s')]
  }

  /** The increments for each id in `ids`, applied in order. */
  function Credit(users: map<Id, User>, ids: seq<Id>, won: bool): map<Id, User>
    decreases |ids|
  {
    if ids == [] then users
    else CreditOne(Credit(users, ids[..|ids| - 1], won), ids[|ids| - 1], won)
  }

  /** Crediting a list of ids touches only debate statistics: each user gains one
      game per occurrence of their id, counted as a win or as a loss. */
  lemma {:induction false} CreditEffect(users: map<Id, User>, ids: seq<Id>, won: bool)
    ensures Credit(users, ids, won).Keys == users.Keys
    ensures forall u :: u in users ==>
      var before, after := users[u], Credit(users, ids, won)[u];
      && after.username == before.username && after.email == before.email
      && after.password == before.password
      && after.debateStats.total == before.debateStats.total + multiset(ids)[u]
      && after.debateStats.wins == before.debateStats.wins + (if won then multiset(ids)[u] else 0)
      && after.debateStats.losses == before.debateStats.losses + (if won then 0 else multiset(ids)[u])
    decreases |ids|
  {
    if ids != [] {
      var init := ids[..|ids| - 1];
      CreditEffect(users, init, won);
      assert ids == init + [ids[|ids| - 1]];
      assert multiset(ids) == multiset(init) + multiset{ids[|ids| - 1]};
    }
  }

  /** Crediting keeps usernames and emails unique and keeps total = wins + losses. */
  lemma CreditKeepsInvariants(users: map<Id, User>, ids: seq<Id>, won: bool)
    requires UsersUnique(users) && StatsBalanced(users)
    ensures UsersUnique(Credit(users, ids, won)) && StatsBalanced(Credit(users, ids, won))
  {
    CreditEffect(users, ids, won);
  }

  // ---------------------------------------------------------------------------
  // Debates

  predicate NoDuplicates(xs: seq<Id>)
  {
    forall i, j :: 0 <= i < j < |xs| ==> xs[i] != xs[j]
  }

  /** The shape every stored debate keeps under the handlers of debates.js:
      the creator heads side A, nobody is on both sides or twice on one side, the
      debate waits exactly while side B is empty, and it carries a judgment, scores
      and a completion time exactly when it is completed. */
  ghost predicate DebateWellFormed(d: Debate)
  {
    && d.status != Cancelled
    && d.topic != [] && IsTrimmed(d.topic)
    && |d.sideA.users| >= 1 && d.sideA.users[0] == d.createdBy
    && NoDuplicates(d.sideA.users) && NoDuplicates(d.sideB.users)
    && (forall u :: u in d.sideA.users ==> u !in d.sideB.users)
    && (d.status == Waiting <==> d.sideB.users == [])
    && (d.status == Waiting <==> d.startedAt.None?)
    && (d.status == Completed <==> d.aiJudgment.Some?)
    && (d.status == Completed <==> d.completedAt.Some?)
    && (d.status == Completed ==>
          d.sideA.score == Some(d.aiJudgment.value.sideAScore) &&
          d.sideB.score == Some(d.aiJudgment.value.sideBScore))
    && (d.status != Completed ==> d.sideA.score.None? && d.sideB.score.None?)
  }

  // ---------------------------------------------------------------------------
  // Argument queries

  /** `Argument.find({ debateId })` in insertion order. */
  function OfDebate(xs: seq<Argument>, d: Id): (r: seq<Argument>)
    ensures forall k :: 0 <= k < |r| ==> r[k].debateId == d && r[k] in xs
    decreases |xs|
  {
    if xs == [] then []
    else
      var init := OfDebate(xs[..|xs| - 1], d);
      if xs[|xs| - 1].debateId == d then init + [xs[|xs| - 1]] else init
  }

  /** The debate filter keeps every stored argument of that debate, as often as it is
      stored, and nothing else. */
  lemma {:induction false} OfDebateCount(xs: seq<Argument>, d: Id, a: Argument)
    ensures multiset(OfDebate(xs, d))[a] == if a.debateId == d then multiset(xs)[a] else 0
    decreases |xs|
  {
    if xs != [] {
      var init := xs[..|xs| - 1];
      OfDebateCount(init, d, a);
      assert xs == init + [xs[|xs| - 1]];
    }
  }

  /** The arguments of one side, in the order given. */
  function OnSide(xs: seq<Argument>, s: SideLabel): (r: seq<Argument>)
    ensures forall k :: 0 <= k < |r| ==> r[k].side == s && r[k] in xs
    decreases |xs|
  {
    if xs == [] then []
    else
      var init := OnSide(xs[..|xs| - 1], s);
      if xs[|xs| - 1].side == s then init + [xs[|xs| - 1]] else init
  }

  /** `Argument.find({ debateId, side })` in insertion order; its length is
      `countDocuments({ debateId, side })`. */
  function SideArguments(xs: seq<Argument>, d: Id, s: SideLabel): seq<Argument>
  {
    OnSide(OfDebate(xs, d), s)
  }

  /** Appending one argument extends exactly the pile of its own debate and side. */
  lemma SideArgumentsAppend(xs: seq<Argument>, a: Argument, d: Id, s: SideLabel)
    ensures SideArguments(xs + [a], d, s) ==
            SideArguments(xs, d, s) + (if a.debateId == d && a.side == s then [a] else [])
  {
    assert (xs + [a])[..|xs|] == xs;
    var ofD := OfDebate(xs, d);
    if a.debateId == d {
      assert OfDebate(xs + [a], d) == ofD + [a];
      assert (ofD + [a])[..|ofD|] == ofD;
    }
  }

  /** A debate none of whose arguments are stored has empty piles. */
  lemma {:induction false} NoArgumentsOfUnknownDebate(xs: seq<Argument>, d: Id, s: SideLabel)
    requires forall k :: 0 <= k < |xs| ==> xs[k].debateId != d
    ensures SideArguments(xs, d, s) == []
    decreases |xs|
  {
    if xs != [] {
      NoArgumentsOfUnknownDebate(xs[..|xs| - 1], d, s);
    }
  }

  /** The orders of a pile are 1, 2, ..., n in storage order. */
  predicate OrdersGapFree(xs: seq<Argument>)
  {
    forall k :: 0 <= k < |xs| ==> xs[k].order == k + 1
  }

  predicate SortedByOrder(xs: seq<Argument>)
  {
    forall i, j :: 0 <= i < j < |xs| ==> xs[i].order <= xs[j].order
  }

  predicate DistinctOrders(xs: seq<Argument>)
  {
    forall i, j :: 0 <= i < j < |xs| ==> xs[i].order != xs[j].order
  }

  /** Places `x` before the first element whose order is not smaller. */
  function Insert(x: Argument, ys: seq<Argument>): (r: seq<Argument>)
    requires SortedByOrder(ys)
    ensures SortedByOrder(r)
    ensures r != [] && (r[0] == x || (ys != [] && r[0] == ys[0]))
  {
    if ys == [] then [x]
    else if x.order <= ys[0].order then [x] + ys
    else
      OrderingOfTail(ys);
      var rest := Insert(x, ys[1..]);
      assert ys[0].order <= rest[0].order;
      [ys[0]] + rest
  }

  /** Inserting adds exactly that element. */
  lemma {:induction false} InsertPermutes(x: Argument, ys: seq<Argument>)
    requires SortedByOrder(ys)
    ensures multiset(Insert(x, ys)) == multiset(ys) + multiset{x}
    decreases |ys|
  {
    if ys != [] && x.order > ys[0].order {
      OrderingOfTail(ys);
      InsertPermutes(x, ys[1..]);
      assert ys == [ys[0]] + ys[1..];
    }
  }

  /** Mongo's `.sort('order')`, as a stable insertion sort: the result is ordered
      by `order` and holds exactly the given arguments. */
  function SortByOrder(xs: seq<Argument>): (r: seq<Argument>)
    ensures SortedByOrder(r)
    ensures multiset(r) == multiset(xs)
  {
    if xs == [] then []
    else
      assert xs == [xs[0]] + xs[1..];
      InsertPermutes(xs[0], SortByOrder(xs[1..]));
      Insert(xs[0], SortByOrder(xs[1..]))
  }

  /** Filtering by side keeps the count of each element of that side and drops
      the others. */
  lemma {:induction false} OnSideCount(xs: seq<Argument>, s: SideLabel, a: Argument)
    ensures multiset(OnSide(xs, s))[a] == if a.side == s then multiset(xs)[a] else 0
    decreases |xs|
  {
    if xs != [] {
      var init := xs[..|xs| - 1];
      OnSideCount(init, s, a);
      assert xs == init + [xs[|xs| - 1]];
    }
  }

  lemma OnSidePermutation(xs: seq<Argument>, ys: seq<Argument>, s: SideLabel)
    requires multiset(xs) == multiset(ys)
    ensures multiset(OnSide(xs, s)) == multiset(OnSide(ys, s))
  {
    forall a ensures multiset(OnSide(xs, s))[a] == multiset(OnSide(ys, s))[a] {
      OnSideCount(xs, s, a);
      OnSideCount(ys, s, a);
    }
  }

  lemma {:induction false} OnSideSorted(xs: seq<Argument>, s: SideLabel)
    requires SortedByOrder(xs)
    ensures SortedByOrder(OnSide(xs, s))
    decreases |xs|
  {
    if xs != [] {
      var init := xs[..|xs| - 1];
      OnSideSorted(init, s);
    }
  }

  lemma OrderingOfTail(xs: seq<Argument>)
    requires xs != []
    ensures SortedByOrder(xs) ==> SortedByOrder(xs[1..])
    ensures DistinctOrders(xs) ==> DistinctOrders(xs[1..])
  {
  }

  lemma SameHeadSameTail(xs: seq<Argument>, ys: seq<Argument>)
    requires xs != [] && ys != [] && xs[0] == ys[0] && xs[1..] == ys[1..]
    ensures xs == ys
  {
    assert xs == [xs[0]] + xs[1..];
    assert ys == [ys[0]] + ys[1..];
  }

  lemma MultisetOfTail(xs: seq<Argument>)
    requires xs != []
    ensures multiset(xs[1..]) == multiset(xs) - multiset{xs[0]}
  {
    assert xs == [xs[0]] + xs[1..];
  }

  /** Two order-sorted sequences holding the same arguments, with no order
      repeated, are the same sequence. */
  lemma {:induction false} SortedPermutationUnique(xs: seq<Argument>, ys: seq<Argument>)
    requires SortedByOrder(xs) && SortedByOrder(ys)
    requires DistinctOrders(xs)
    requires multiset(xs) == multiset(ys)
    ensures xs == ys
    decreases |xs|
  {
    assert |ys| == |xs| by { assert |multiset(ys)| == |multiset(xs)|; }
    if xs != [] {
      SortedPermutationHeads(xs, ys);
      MultisetOfTail(xs);
      MultisetOfTail(ys);
      OrderingOfTail(xs);
      OrderingOfTail(ys);
      SortedPermutationUnique(xs[1..], ys[1..]);
      SameHeadSameTail(xs, ys);
    }
  }

  lemma SortedPermutationHeads(xs: seq<Argument>, ys: seq<Argument>)
    requires SortedByOrder(xs) && SortedByOrder(ys)
    requires DistinctOrders(xs)
    requires multiset(xs) == multiset(ys)
    requires xs != [] && ys != []
    ensures xs[0] == ys[0]
  {
    var x, y := xs[0], ys[0];
    assert x in multiset(ys);
    assert y in multiset(xs);
    var j :| 0 <= j < |ys| && ys[j] == x;
    var i :| 0 <= i < |xs| && xs[i] == y;
    assert x.order <= y.order;
    assert y.order <= x.order;
    assert i == 0;
  }

  /** The per-side text the judge builds does not depend on how the sort breaks
      ties: in any order-sorted arrangement of a debate's arguments, a side whose
      orders are 1..n appears exactly in storage order. */
  lemma SideOfSortedIsStorageOrder(all: seq<Argument>, sorted: seq<Argument>, s: SideLabel)
    requires SortedByOrder(sorted) && multiset(sorted) == multiset(all)
    requires OrdersGapFree(OnSide(all, s))
    ensures OnSide(sorted, s) == OnSide(all, s)
  {
    OnSidePermutation(sorted, all, s);
    OnSideSorted(sorted, s);
    SortedPermutationUnique(OnSide(all, s), OnSide(sorted, s));
  }

  // ---------------------------------------------------------------------------
  // The argument collection's invariant

  /** The arguments of one debate side: orders 1..n and, once any exists, no more
      than the debate's argument limit. */
  predicate PileWellFormed(xs: seq<Argument>, limit: int)
  {
    OrdersGapFree(xs) && (xs == [] || |xs| <= limit)
  }

  /** A stored argument belongs to a stored debate, was written by a user on its
      side, and has trimmed, non-empty content. */
  predicate ArgumentFits(a: Argument, debates: map<Id, Debate>)
  {
    && a.debateId in debates
    && a.userId in SideUsers(debates[a.debateId], a.side == A)
    && a.content != [] && IsTrimmed(a.content)
  }

  ghost predicate ArgumentsWellFormed(xs: seq<Argument>, debates: map<Id, Debate>)
  {
    && (forall k :: 0 <= k < |xs| ==> ArgumentFits(xs[k], debates))
    && (forall d, s :: d in debates ==>
          PileWellFormed(SideArguments(xs, d, s), debates[d].settings.argumentLimit))
  }

  /** Changing a debate without removing anyone from its sides and without touching
      its settings keeps the argument collection well formed. */
  lemma ArgumentsSurviveDebateUpdate(xs: seq<Argument>, debates: map<Id, Debate>, id: Id, d': Debate)
    requires ArgumentsWellFormed(xs, debates) && id in debates
    requires d'.settings == debates[id].settings
    requires forall u :: u in debates[id].sideA.users ==> u in d'.sideA.users
    requires forall u :: u in debates[id].sideB.users ==> u in d'.sideB.users
    ensures ArgumentsWellFormed(xs, debates[id := d'])
  {
    var debates' := debates[id := d'];
    forall k | 0 <= k < |xs| ensures ArgumentFits(xs[k], debates') {
      assert ArgumentFits(xs[k], debates);
    }
    forall d, s | d in debates'
      ensures PileWellFormed(SideArguments(xs, d, s), debates'[d].settings.argumentLimit)
    {
      assert d in debates;
    }
  }

  /** A newly stored debate has no arguments yet, so the collection stays well formed. */
  lemma ArgumentsSurviveNewDebate(xs: seq<Argument>, debates: map<Id, Debate>, id: Id, d': Debate)
    requires ArgumentsWellFormed(xs, debates) && id !in debates
    ensures ArgumentsWellFormed(xs, debates[id := d'])
  {
    var debates' := debates[id := d'];
    forall k | 0 <= k < |xs| ensures ArgumentFits(xs[k], debates') {
      assert ArgumentFits(xs[k], debates);
    }
    forall d, s | d in debates'
      ensures PileWellFormed(SideArguments(xs, d, s), debates'[d].settings.argumentLimit)
    {
      if d == id {
        forall k | 0 <= k < |xs| ensures xs[k].debateId != id {
          assert ArgumentFits(xs[k], debates);
        }
        NoArgumentsOfUnknownDebate(xs, id, s);
      }
    }
  }

  /** Appending an argument that fits, numbered one past its pile and within the
      pile's limit, keeps the collection well formed. */
  lemma ArgumentsSurviveAppend(xs: seq<Argument>, debates: map<Id, Debate>, a: Argument)
    requires ArgumentsWellFormed(xs, debates) && ArgumentFits(a, debates)
    requires a.order == |SideArguments(xs, a.debateId, a.side)| + 1
    requires |SideArguments(xs, a.debateId, a.side)| < debates[a.debateId].settings.argumentLimit
    ensures ArgumentsWellFormed(xs + [a], debates)
  {
    var ys := xs + [a];
    forall k | 0 <= k < |ys| ensures ArgumentFits(ys[k], debates) {
      if k < |xs| {
        assert ys[k] == xs[k];
      }
    }
    forall d, s | d in debates
      ensures PileWellFormed(SideArguments(ys, d, s), debates[d].settings.argumentLimit)
    {
      SideArgumentsAppend(xs, a, d, s);
      assert PileWellFormed(SideArguments(xs, d, s), debates[d].settings.argumentLimit);
    }
  }

  /** In a well-formed collection a side never holds more than its limit. */
  lemma PileWithinLimit(xs: seq<Argument>, debates: map<Id, Debate>, d: Id, s: SideLabel)
    requires ArgumentsWellFormed(xs, debates) && d in debates
    ensures |SideArguments(xs, d, s)| <= if debates[d].settings.argumentLimit < 0 then 0 else debates[d].settings.argumentLimit
  {
  }

  // ---------------------------------------------------------------------------
  // The store's invariant

  /** Ids are below the counter, users are unique and balanced, debates are well
      formed and the argument collection is well formed. */
  ghost predicate StoreValid(users: map<Id, User>, debates: map<Id, Debate>, xs: seq<Argument>, nextId: nat)
  {
    && (forall id :: id in users ==> id < nextId)
    && (forall id :: id in debates ==> id < nextId)
    && (forall k :: 0 <= k < |xs| ==> xs[k].id < nextId)
    && UsersUnique(users) && StatsBalanced(users)
    && (forall id :: id in debates ==> DebateWellFormed(debates[id]))
    && ArgumentsWellFormed(xs, debates)
  }

  /** Registering a user whose email and username are free, with balanced
      statistics, under the next id keeps the invariant. */
  lemma UserInsertKeepsValid(users: map<Id, User>, debates: map<Id, Debate>, xs: seq<Argument>, nextId: nat, u: User)
    requires StoreValid(users, debates, xs, nextId)
    requires !EmailTaken(users, u.email) && !UsernameTaken(users, u.username)
    requires u.debateStats.total == u.debateStats.wins + u.debateStats.losses
    ensures StoreValid(users[nextId := u], debates, xs, nextId + 1)
  {
    var users' := users[nextId := u];
    forall i, j | i in users' && j in users' && i != j
      ensures users'[i].email != users'[j].email && users'[i].username != users'[j].username
    {
      if i == nextId {
        assert j in users;
      } else if j == nextId {
        assert i in users;
      }
    }
  }

  /** Storing a well-formed debate under the next id keeps the invariant. */
  lemma DebateInsertKeepsValid(users: map<Id, User>, debates: map<Id, Debate>, xs: seq<Argument>, nextId: nat, d: Debate)
    requires StoreValid(users, debates, xs, nextId) && DebateWellFormed(d)
    ensures StoreValid(users, debates[nextId := d], xs, nextId + 1)
  {
    ArgumentsSurviveNewDebate(xs, debates, nextId, d);
  }

  /** Replacing a debate by a well-formed one with the same settings and nobody
      removed from either side keeps the invariant. */
  lemma DebateUpdateKeepsValid(users: map<Id, User>, debates: map<Id, Debate>, xs: seq<Argument>, nextId: nat,
                               id: Id, d': Debate)
    requires StoreValid(users, debates, xs, nextId) && id in debates && DebateWellFormed(d')
    requires d'.settings == debates[id].settings
    requires forall u :: u in debates[id].sideA.users ==> u in d'.sideA.users
    requires forall u :: u in debates[id].sideB.users ==> u in d'.sideB.users
    ensures StoreValid(users, debates[id := d'], xs, nextId)
  {
    ArgumentsSurviveDebateUpdate(xs, debates, id, d');
  }

  /** Crediting wins or losses keeps the invariant. */
  lemma CreditKeepsValid(users: map<Id, User>, debates: map<Id, Debate>, xs: seq<Argument>, nextId: nat,
                         ids: seq<Id>, won: bool)
    requires StoreValid(users, debates, xs, nextId)
    ensures StoreValid(Credit(users, ids, won), debates, xs, nextId)
  {
    CreditEffect(users, ids, won);
    CreditKeepsInvariants(users, ids, won);
  }

  /** Appending an argument that fits, under the next id, numbered one past its pile
      and within the pile's limit, keeps the invariant. */
  lemma ArgumentAppendKeepsValid(users: map<Id, User>, debates: map<Id, Debate>, xs: seq<Argument>, nextId: nat,
                                 a: Argument)
    requires StoreValid(users, debates, xs, nextId) && ArgumentFits(a, debates) && a.id == nextId
    requires a.order == |SideArguments(xs, a.debateId, a.side)| + 1
    requires |SideArguments(xs, a.debateId, a.side)| < debates[a.debateId].settings.argumentLimit
    ensures StoreValid(users, debates, xs + [a], nextId + 1)
  {
    ArgumentsSurviveAppend(xs, debates, a);
    var ys := xs + [a];
    forall k | 0 <= k < |ys| ensures ys[k].id < nextId + 1 {
      if k < |xs| {
        assert ys[k] == xs[k];
      }
    }
  }

  /** The collections behind the Express handlers. Records are keyed by ids
      drawn from `nextId`. */
  class Database {
    var users: map<Id, User>
    var debates: map<Id, Debate>
    var arguments: seq<Argument>
    var nextId: nat

    ghost predicate Valid()
      reads this
    {
      StoreValid(users, debates, arguments, nextId)
    }

    constructor ()
      ensures Valid()
      ensures users == map[] && debates == map[] && arguments == [] && nextId == 0
    {
      users, debates, arguments, nextId := map[], map[], [], 0;
    }

    /** Saving a new user whose email and username are free: it gets a fresh id. */
    method AddUser(u: User) returns (id: Id)
      requires Valid() && !EmailTaken(users, u.email) && !UsernameTaken(users, u.username)
      requires u.debateStats.total == u.debateStats.wins + u.debateStats.losses
      modifies this
      ensures Valid()
      ensures id == old(nextId) && id !in old(users)
      ensures users == old(users)[id := u]
      ensures debates == old(debates) && arguments == old(arguments)
    {
      UserInsertKeepsValid(users, debates, arguments, nextId, u);
      id := nextId;
      users := users[id := u];
      nextId := nextId + 1;
    }

    /** Saving a new well-formed debate: it gets a fresh id. */
    method AddDebate(d: Debate) returns (id: Id)
      requires Valid() && DebateWellFormed(d)
      modifies this
      ensures Valid()
      ensures id == old(nextId) && id !in old(debates)
      ensures debates == old(debates)[id := d]
      ensures users == old(users) && arguments == old(arguments)
    {
      DebateInsertKeepsValid(users, debates, arguments, nextId, d);
      id := nextId;
      debates := debates[id := d];
      nextId := nextId + 1;
    }

    /** `debate.save()` on a stored debate that keeps its settings and everyone on
        its sides. */
    method ReplaceDebate(id: Id, d: Debate)
      requires Valid() && id in debates && DebateWellFormed(d)
      requires d.settings == debates[id].settings
      requires forall u :: u in debates[id].sideA.users ==> u in d.sideA.users
      requires forall u :: u in debates[id].sideB.users ==> u in d.sideB.users
      modifies this
      ensures Valid()
      ensures debates == old(debates)[id := d]
      ensures users == old(users) && arguments == old(arguments) && nextId == old(nextId)
    {
      DebateUpdateKeepsValid(users, debates, arguments, nextId, id, d);
      debates := debates[id := d];
    }

    /** Saving a new argument that fits, numbered one past its pile and under the
        limit; its id must be the next one. */
    method AddArgument(a: Argument)
      requires Valid() && ArgumentFits(a, debates) && a.id == nextId
      requires a.order == |SideArguments(arguments, a.debateId, a.side)| + 1
      requires |SideArguments(arguments, a.debateId, a.side)| < debates[a.debateId].settings.argumentLimit
      modifies this
      ensures Valid()
      ensures arguments == old(arguments) + [a] && nextId == old(nextId) + 1
      ensures users == old(users) && debates == old(debates)
    {
      ArgumentAppendKeepsValid(users, debates, arguments, nextId, a);
      arguments, nextId := arguments + [a], nextId + 1;
    }
  }
}

=== FILE: text.dfy ===
/** String helpers shared by the JavaScript and Python parts: whitespace trimming
    (`String.prototype.trim`, `str.strip`, Mongoose `trim: true`), splitting on and
    joining with a one-character separator (`split(',')`, `join(' ')`), and the fact
    that a separator absent from a field makes a delimited record readable again. */
module Text {

  /** The whitespace characters the model trims: space, tab, line feed, carriage
      return, vertical tab and form feed. */
  predicate IsSpace(c: char)
  {
    c == ' ' || c == '\t' || c == '\n' || c == '\r' || c == '\U{000B}' || c == '\U{000C}'
  }

  predicate AllSpace(s: string)
  {
    forall i :: 0 <= i < |s| ==> IsSpace(s[i])
  }

  /** `s` neither begins nor ends with whitespace. */
  predicate IsTrimmed(s: string)
  {
    s == [] || (!IsSpace(s[0]) && !IsSpace(s[|s| - 1]))
  }

  /** Drops leading whitespace: the result is the suffix of `s` left after a run of
      whitespace, and it does not start with whitespace. */
  function TrimStart(s: string): (r: string)
    ensures |r| <= |s| && r == s[|s| - |r|..]
    ensures r == [] || !IsSpace(r[0])
    ensures AllSpace(s[..|s| - |r|])
    decreases |s|
  {
    if s != [] && IsSpace(s[0]) then
      var r := TrimStart(s[1..]);
      assert s[..|s| - |r|] == [s[0]] + s[1..][..|s| - 1 - |r|];
      r
    else s
  }

  /** Drops trailing whitespace: the result is the prefix of `s` before a final run of
      whitespace, and it does not end with whitespace. */
  function TrimEnd(s: string): (r: string)
    ensures |r| <= |s| && r == s[..|r|]
    ensures r == [] || !IsSpace(r[|r| - 1])
    ensures AllSpace(s[|r|..])
    decreases |s|
  {
    if s != [] && IsSpace(s[|s| - 1]) then
      var r := TrimEnd(s[..|s| - 1]);
      assert s[|r|..] == s[..|s| - 1][|r|..] + [s[|s| - 1]];
      r
    else s
  }

  /** `s` is `r` with only whitespace before and after it. */
  predicate WhitespaceAround(s: string, r: string)
  {
    exists i :: 0 <= i && i + |r| <= |s| && r == s[i..i + |r|]
                && AllSpace(s[..i]) && AllSpace(s[i + |r|..])
  }

  /** Both ends trimmed: what is left of `s` once its leading and trailing runs of
      whitespace are removed. */
  function Trim(s: string): (r: string)
    ensures IsTrimmed(r)
    ensures |r| <= |s|
    ensures WhitespaceAround(s, r)
  {
    var t := TrimStart(s);
    var r := TrimEnd(t);
    TrimSplits(s, t, r);
    r
  }

  /** `s` is a whitespace run, then `r`, then a whitespace run, where `r` is the
      trimmed end of the trimmed start `t`; and `r` is trimmed. */
  lemma TrimSplits(s: string, t: string, r: string)
    requires |t| <= |s| && t == s[|s| - |t|..] && AllSpace(s[..|s| - |t|])
    requires t == [] || !IsSpace(t[0])
    requires |r| <= |t| && r == t[..|r|] && AllSpace(t[|r|..])
    requires r == [] || !IsSpace(r[|r| - 1])
    ensures IsTrimmed(r)
    ensures WhitespaceAround(s, r)
  {
    assert r != [] ==> r[0] == t[0];
    var i := |s| - |t|;
    assert s[i + |r|..] == t[|r|..];
    assert r == s[i..i + |r|];
  }

  lemma {:induction false} TrimStartOfTrimmed(s: string)
    requires s == [] || !IsSpace(s[0])
    ensures TrimStart(s) == s
  {
  }

  /** Trimming a second time changes nothing. */
  lemma {:induction false} TrimIdempotent(s: string)
    ensures Trim(Trim(s)) == Trim(s)
  {
    var r := Trim(s);
    TrimStartOfTrimmed(r);
    assert TrimEnd(r) == r;
  }

  /** Trimming yields the empty string exactly when `s` is all whitespace. */
  lemma {:induction false} TrimEmptyIffAllSpace(s: string)
    ensures Trim(s) == [] <==> AllSpace(s)
  {
    if Trim(s) == [] {
      OnlyWhitespaceAround(s);
    }
    if AllSpace(s) {
      AllSpaceTrimsAway(s);
    }
  }

  /** A string that is nothing but whitespace around the empty string is all whitespace. */
  lemma OnlyWhitespaceAround(s: string)
    requires WhitespaceAround(s, [])
    ensures AllSpace(s)
  {
    var i :| 0 <= i && i <= |s| && [] == s[i..i] && AllSpace(s[..i]) && AllSpace(s[i..]);
    forall k | 0 <= k < |s| ensures IsSpace(s[k]) {
      if k < i {
        assert s[..i][k] == s[k];
      } else {
        assert s[i..][k - i] == s[k];
      }
    }
  }

  lemma {:induction false} AllSpaceTrimsAway(s: string)
    requires AllSpace(s)
    ensures TrimStart(s) == []
    decreases |s|
  {
    if s != [] {
      AllSpaceTrimsAway(s[1..]);
    }
  }

  // ---------------------------------------------------------------------------
  // Splitting and joining on one separator character

  /** Index of the first `c` in `s`, or `|s|` when there is none. */
  function IndexOf(s: string, c: char): (i: nat)
    ensures i <= |s|
    ensures i < |s| ==> s[i] == c
    ensures c !in s[..i]
  {
    if s == [] then 0
    else if s[0] == c then 0
    else
      var j := IndexOf(s[1..], c);
      assert s[..1 + j] == [s[0]] + s[1..][..j];
      1 + j
  }

  /** `s.split(c)`: the pieces between separators, in order; never empty. */
  function Split(s: string, c: char): (parts: seq<string>)
    ensures |parts| >= 1
    ensures forall k :: 0 <= k < |parts| ==> c !in parts[k]
    decreases |s|
  {
    var i := IndexOf(s, c);
    if i == |s| then
      assert s[..i] == s;
      [s]
    else
      [s[..i]] + Split(s[i + 1..], c)
  }

  /** `parts.join(c)`. */
  function Join(parts: seq<string>, c: char): string
  {
    if parts == [] then ""
    else if |parts| == 1 then parts[0]
    else parts[0] + [c] + Join(parts[1..], c)
  }

  /** A join of non-empty pieces is empty exactly when there are no pieces. */
  lemma {:induction false} JoinEmpty(parts: seq<string>, c: char)
    requires forall k :: 0 <= k < |parts| ==> parts[k] != []
    ensures Join(parts, c) == [] <==> parts == []
  {
    if |parts| > 1 {
      assert Join(parts, c) == parts[0] + [c] + Join(parts[1..], c);
    }
  }

  /** Joining the pieces of a split restores the original string. */
  lemma {:induction false} JoinSplit(s: string, c: char)
    ensures Join(Split(s, c), c) == s
    decreases |s|
  {
    var i := IndexOf(s, c);
    if i < |s| {
      var head, rest := s[..i], s[i + 1..];
      var tail := Split(rest, c);
      JoinSplit(rest, c);
      assert Split(s, c) == [head] + tail;
      assert ([head] + tail)[1..] == tail;
      assert Join([head] + tail, c) == head + [c] + Join(tail, c);
      assert s == head + [c] + rest;
    }
  }

  /** The first separator of `p + [c] + rest` sits right after `p` when `p` has none. */
  lemma {:induction false} IndexOfAfterField(p: string, c: char, rest: string)
    requires c !in p
    ensures IndexOf(p + [c] + rest, c) == |p|
  {
    if p != [] {
      assert (p + [c] + rest)[1..] == p[1..] + [c] + rest;
      IndexOfAfterField(p[1..], c, rest);
    }
  }

  /** Splitting a join of separator-free pieces gives the pieces back. */
  lemma {:induction false} SplitJoin(parts: seq<string>, c: char)
    requires parts != []
    requires forall k :: 0 <= k < |parts| ==> c !in parts[k]
    ensures Split(Join(parts, c), c) == parts
  {
    if |parts| == 1 {
      var s := parts[0];
      assert IndexOf(s, c) == |s|;
    } else {
      var s := Join(parts, c);
      var rest := Join(parts[1..], c);
      IndexOfAfterField(parts[0], c, rest);
      assert s[..|parts[0]|] == parts[0];
      assert s[|parts[0]| + 1..] == rest;
      SplitJoin(parts[1..], c);
    }
  }

  /** A separator that does not occur in the leading fields determines where they
      end: two records that agree as strings agree field by field. */
  lemma {:induction false} LeadingFieldDetermined(a: string, b: string, a': string, b': string, c: char)
    requires c !in a && c !in a'
    requires a + [c] + b == a' + [c] + b'
    ensures a == a' && b == b'
  {
    var s := a + [c] + b;
    IndexOfAfterField(a, c, b);
    IndexOfAfterField(a', c, b');
    assert a == s[..|a|];
    assert b == s[|a| + 1..];
  }

  /** The text after the last `c` in `s` (all of `s` when there is none). */
  function LastField(s: string, c: char): (r: string)
    ensures |r| <= |s| && r == s[|s| - |r|..]
    decreases |s|
  {
    if s == [] then []
    else if s[|s| - 1] == c then []
    else LastField(s[..|s| - 1], c) + [s[|s| - 1]]
  }

  lemma {:induction false} LastFieldOfRecord(a: string, c: char, b: string)
    requires c !in b
    ensures LastField(a + [c] + b, c) == b
    decreases |b|
  {
    var s := a + [c] + b;
    if b != [] {
      var b0 := b[..|b| - 1];
      assert s[..|s| - 1] == a + [c] + b0;
      LastFieldOfRecord(a, c, b0);
      assert b == b0 + [b[|b| - 1]];
    }
  }

  /** The mirror image of LeadingFieldDetermined: a separator absent from the trailing
      fields determines where they start, whatever the leading field contains. */
  lemma {:induction false} TrailingFieldDetermined(a: string, b: string, a': string, b': string, c: char)
    requires c !in b && c !in b'
    requires a + [c] + b == a' + [c] + b'
    ensures a == a' && b == b'
  {
    var s := a + [c] + b;
    LastFieldOfRecord(a, c, b);
    LastFieldOfRecord(a', c, b');
    assert a == s[..|a|];
    assert a' == s[..|a'|];
  }

  predicate StartsWith(s: string, prefix: string)
  {
    |prefix| <= |s| && s[..|prefix|] == prefix
  }

  // ---------------------------------------------------------------------------
  // Lowercase hexadecimal digits

  predicate IsHexDigit(c: char)
  {
    '0' <= c <= '9' || 'a' <= c <= 'f'
  }

  /** The value of a lowercase hexadecimal digit, and 0 for any other character. */
  function HexValue(c: char): (v: int)
    ensures 0 <= v < 16
  {
    if '0' <= c <= '9' then c as int - '0' as int
    else if 'a' <= c <= 'f' then c as int - 'a' as int + 10
    else 0
  }

  /** The lowercase hexadecimal digit of a value below 16, which reads back as it. */
  function HexDigit(v: int): (c: char)
    requires 0 <= v < 16
    ensures IsHexDigit(c) && HexValue(c) == v
  {
    if v < 10 then ('0' as int + v) as char else ('a' as int + v - 10) as char
  }
}
